=== FILE: README.md ===
# 10up scaffold — a Dafny model

The 10up scaffold is a small Node.js command line tool that starts a new
project from a template repository. It has two scripts:

- `10upScaffold.js`, the theme scaffold. It takes a project name and
  derives five spellings of it: kebab, lower snake, upper snake, title and
  Pascal case. It refuses to run when `./<name>` already exists. Otherwise
  it clones the template theme into `./<name>` and, in the clone's
  callback:
  - deletes `README.md`, and `.git` when it exists;
  - rewrites the placeholder spellings in every dotted file of the tree;
  - renames the placeholder directory and the translation template, each
    only when it exists.
- `10up-scaffold.js`, the webpack starter. It works on the fixed name
  `project-name`. It has the same guard and the same clone. It deletes
  `README.md` and `.git` without checking first. It rewrites text only in
  the top-level dotted files. It renames `assets` to `new-assets` without
  checking first.

Both scripts share the recursive removal helpers `deleteFile` and
`deleteDirectory`.

The model is made of eight modules:

| file | module | what it holds |
|---|---|---|
| `names.dfy` | `Names` | the name derivation, ASCII case mapping, and the `replace` behaviours it relies on |
| `fs.dfy` | `Fs` | the file tree as a map from paths (sequences of names) to nodes, plus the error kinds |
| `remove.dfy` | `Remove` | `deleteFile` / `deleteDirectory` |
| `rename.dfy` | `Renaming` | `fs.rename` with the `rename(2)` refusal rules |
| `substitution.dfy` | `Substitution` | global literal replacement, the two globs, and a replacement table applied rule by rule |
| `scaffolding.dfy` | `Scaffolding` | the clone, the destination guard, the removals of a run, and frame and shape lemmas |
| `theme.dfy` | `ThemeScaffold` | the theme scaffold run |
| `starter.dfy` | `StarterScaffold` | the starter run |

The operating system is a parameter. `denied` is the set of paths whose
`unlink`, `rmdir` or `rename` is refused. The clone is a `Clone` value:
either the template tree or an error message. Neither promise of a removal
is awaited, so a rejected removal changes nothing else in the run. It is
only listed in the run's `Report.rejected`. A rename error is thrown from
its callback and appears as the status `RenameThrew`.

**Step order.** The callback starts its steps without waiting for any of
them, so the model fixes an order:

- Theme script:
  - The replacements use `replace.sync`, so they finish before any removal
    or rename callback runs. The model therefore applies the replacements
    first, then the removals, then the renames.
  - The existence checks for `.git` and for the rename sources happen
    synchronously, on the freshly cloned tree. The model asks them of that
    tree.
  - Only "replacements first" follows from the code. The removals and
    the renames are all asynchronous, and a single `rename` usually
    completes before the recursive `unlink`/`rmdir` chain. Removals before
    renames is an order the model chooses. The choice matters when a
    rename target is also a removal target, as for the name `.git`: the
    first rename then moves onto `.git/.git`.
- Starter script: every step is asynchronous. The model applies them in
  the order they are started: removals, then replacement, then rename.
  This too is a chosen order. In the source the glob may, for example,
  still select `README.md` while its removal is under way.

## Model

| member | source | states |
|---|---|---|
| Names.Derive | 10upScaffold.js:54-59 | The kebab, snake and title tokens have the length of the name. The snake and title tokens contain no `-`. The Pascal token is one character shorter than the title exactly when the title contains a space. |
| Names.SnakeTokens | 10upScaffold.js:54-59 | The kebab token is the ASCII lower-casing of the name. Lower snake is the kebab token with every `-` replaced by `_` and every other character kept, so it has `_` exactly where the kebab has `-` or `_`. The upper-snake token is the upper-casing of the lower-snake token and has no `-`. |
| Names.TitleCharacters | 10upScaffold.js:55-56 | A `-` becomes a space. A title character is upper-case exactly when it is a lower-case letter at a word start (`\b\w`) of the spaced name. Every other character is unchanged. |
| Names.RemoveFirst | 10upScaffold.js:57 | A string pattern in `replace` removes only the first occurrence. The result is the string without the character at the first index of `c`, or the string itself when `c` does not occur. |
| Names.PascalSpaces | 10upScaffold.js:55-57 | The Pascal token keeps one space fewer than the name has hyphens plus spaces, or none when it has none. |
| Names.SingleHyphenPascal | 10upScaffold.js:57 | For a name without spaces, at most one hyphen gives a Pascal token without spaces. Two or more hyphens leave a space in it. |
| Names.DeriveIntended | 10upScaffold.js:54-59 | The corrected derivation. Its Pascal token has no space at all: it is the title minus every space. Its other four tokens are those of `Derive`. |
| Names.IntendedAgrees | 10upScaffold.js:57 | The corrected derivation equals the code's derivation exactly when the lower-cased name has at most one hyphen or space in total. |
| Remove.DeleteFile | 10upScaffold.js:197-223 | A missing path rejects with `NotFound` and changes nothing. The result removes only entries at or below the path. Its log lists exactly the removed entries, in post-order. On success the path is gone. |
| Remove.DeleteDirectory | 10upScaffold.js:229-259 | A missing directory rejects with `NotFound` and changes nothing. Only entries at or below it are removed, logged in post-order. On success nothing at or below it remains. |
| Remove.DeleteEachRemoves | 10upScaffold.js:240-249 | The `Promise.all` over the entries resolves exactly when every entry's subtree holds nothing refused. An entry is removed exactly when it lies below one of the listed entries and its own subtree is clear. |
| Remove.DeleteDirectoryRemoves | 10upScaffold.js:229-259 | `deleteDirectory` of an existing directory resolves exactly when nothing below it is refused. An entry disappears exactly when it is below the directory and nothing in its own subtree is refused. |
| Remove.DeleteFileRemoves | 10upScaffold.js:197-223 | The same characterisation for `deleteFile` of an existing path, file or directory. The result does not depend on the order `readdir` lists entries in. |
| Remove.DeleteFileResult | 10up-scaffold.js:112-174 | The tree after `deleteFile` is the old tree minus the removable entries. On success nothing at or below the path is left. |
| Renaming.Rename | 10upScaffold.js:182-183 | A missing source fails with `NotFound`. A success moves the subtree at the source to the target: entries elsewhere are untouched, every entry reappears rebased under the target, nothing else is under the target, and nothing is left under the source. Renaming onto itself is the identity. |
| Renaming.MoveBack | 10upScaffold.js:182 | Moving a subtree to a free place and back restores the tree. |
| Renaming.RenameRoundTrip | 10upScaffold.js:182 | A successful rename to a free, unrefused path can be undone by the reverse rename, which restores the tree exactly. |
| Substitution.ReplaceAll | 10upScaffold.js:163-168 | A text without an occurrence of the pattern is unchanged. |
| Substitution.ReplaceIsSplitJoin | 10upScaffold.js:163-168 | Global replacement equals splitting the text at the pattern and joining the pieces with the replacement. |
| Substitution.FirstCutIsLeftmost | 10upScaffold.js:163-168 | The split scans from the left. No occurrence of the pattern starts before the first cut, not even one that overlaps it, and when there is more than one piece the pattern occurs right at the cut. |
| Substitution.SplitRest | 10upScaffold.js:163-168 | After the first cut the split resumes just past the occurrence cut at: the remaining pieces are the split of the rest of the text. With `FirstCutIsLeftmost` this makes every cut the leftmost occurrence that does not overlap the previous one. |
| Substitution.SinglePiece | 10upScaffold.js:163-168 | The text is a single piece exactly when the pattern does not occur in it. |
| Substitution.JoinSplit | 10upScaffold.js:163-168 | Joining the pieces with the pattern gives back the text. |
| Substitution.PiecesAreFree | 10upScaffold.js:163-168 | No piece contains the pattern. |
| Substitution.ReplaceWithItself | 10upScaffold.js:163-168 | Replacing a pattern with itself changes nothing. |
| Substitution.Substitute | 10up-scaffold.js:79-83 | One `replace-in-file` run keeps every path. Every file the glob selects gets the rewritten text of its own content. Every other entry is left as it was. |
| Substitution.ShallowWithinDeep | 10up-scaffold.js:80 | Every file `<root>/*.*` selects, `<root>/**/*.*` selects as well. |
| Substitution.ApplyRules | 10upScaffold.js:160-177 | Applying the replacement table keeps every path. Unselected entries and directories are unchanged. Selected files stay files. |
| Substitution.ApplyRulesPerFile | 10upScaffold.js:160-177 | A selected file's text passes through the rules that did not throw, in table order. A throwing rule is skipped and every later rule still runs. |
| Substitution.ChainWithoutOccurrences | 10upScaffold.js:160-177 | A text that contains none of the patterns goes through the table unchanged. |
| Scaffolding.GraftOutside | 10upScaffold.js:127 | The clone into `./<name>` leaves every entry outside `./<name>` as it was. |
| Scaffolding.GraftInside | 10upScaffold.js:127 | After the clone, `./<name>` is a directory. Every entry of the repository sits below it with its node, and nothing else is below it. |
| Scaffolding.GraftWellFormed | 10upScaffold.js:127 | Cloning a well-formed repository into a well-formed tree keeps every entry's parent a directory. |
| Scaffolding.RenameStep | 10upScaffold.js:180-187 | A skipped rename changes nothing. A rename of a missing source fails with `NotFound`. A failed rename changes nothing. A successful one moves the subtree. |
| Scaffolding.Prune | 10up-scaffold.js:64-74 | The removals only take entries away. A missing `README.md` is reported as rejected. A missing `.git` whose removal is started is reported as rejected. A `.git` whose removal is not started never is. Nothing but these two paths is ever reported. |
| Scaffolding.PruneRejects | 10up-scaffold.js:64-74 | `README.md` is reported as rejected exactly when it is missing or something at or below it is refused. `.git` is reported exactly when its removal is started and it is missing, not a directory, or holds something refused. |
| Scaffolding.PruneRemoves | 10up-scaffold.js:64-74 | An entry is taken away exactly when it is at or below `README.md`, or at or below the directory `.git` whose removal is started, and nothing in its own subtree is refused. Every other entry stays. |
| Scaffolding.Graft | 10upScaffold.js:127 | After the clone `./<name>` is a directory. Every entry outside it is kept with its node. Every entry of the repository is placed below it with its node. |
| Scaffolding.PruneShape | 10upScaffold.js:139-157 | Removals on two trees with the same entries and directories leave trees with the same shape. They also reject the same removals, whatever the files contain. |
| Scaffolding.RenameStepShape | 10upScaffold.js:180-187 | A rename on two trees of the same shape has the same outcome and leaves trees of the same shape. |
| ThemeScaffold.RenameTable | 10upScaffold.js:95-104 | Each rename keeps its entry in the same directory: the source and the target have the same parent. |
| ThemeScaffold.AfterClone | 10upScaffold.js:128-190 | After a successful clone the run completes or a rename throws. Only `<name>/README.md` and `<name>/.git` can be reported as rejected removals. |
| ThemeScaffold.AfterCloneCompletes | 10upScaffold.js:128-190 | A clone with `README.md`, a `.git` directory and the placeholder directory, nothing refused in `./<name>` and free rename targets completes with nothing rejected. `README.md`, `.git` and the placeholder directory are gone. The placeholder directory's entries reappear under `<name>/<name>`, and the translation template, when present, under its new name. Every other entry stays in place. Every selected file holds its text passed through the rules that did not throw. |
| ThemeScaffold.RenameTemplateMoves | 10upScaffold.js:179-187 | When the placeholder directory existed after the clone and is still there, and the targets are free, the run completes. The placeholder subtree reappears rebased under `<name>/<name>`, and the translation template, if it existed after the clone, under its new name. Nothing is left under a moved source. Everything else is kept, and new entries appear only under the two targets. |
| Scaffolding.PruneAll | 10upScaffold.js:139-157 | With `README.md` present, `.git` a directory and nothing refused, both removals succeed. Exactly the entries at or below the two paths are gone. |
| Scaffolding.RenameToFree | 10upScaffold.js:180-187 | A rename of a present, unrefused source to a free target whose parent is a directory succeeds and moves the subtree. |
| Scaffolding.DisjointMoves | 10upScaffold.js:179-187 | Two moves between four paths, none at or below another, each to a free place, compose. Each subtree lands under its own target, nothing is left under either source, everything else is kept, and new entries appear only under the targets. |
| ThemeScaffold.Run | 10upScaffold.js:110-136 | An existing destination ends the run with nothing changed. A failed clone is logged with nothing changed. After a successful clone the run completes or a rename throws. |
| ThemeScaffold.Scaffold | 10upScaffold.js:54-121 | The guard tests the lower-cased name. |
| ThemeScaffold.ScaffoldIntended | 10upScaffold.js:54-57 | With the corrected Pascal token, a name with at most one hyphen or space gives exactly the same run. The guard and the error paths are unchanged. |
| ThemeScaffold.TextRules | 10upScaffold.js:71-92 | The five placeholder spellings, each paired with its derived token. Every pattern is non-empty, as global replacement requires. |
| ThemeScaffold.ThemeStaysInside | 10upScaffold.js:127-191 | Whatever happens, nothing outside `./<name>` changes. |
| ThemeScaffold.ThemeSkipsMissingEntries | 10upScaffold.js:148-187 | Without either rename source the run completes. Without `.git` no removal of `.git` is reported: at most `README.md` is rejected. |
| ThemeScaffold.ThemeRuleFailuresDoNotStop | 10upScaffold.js:160-177 | Whichever replacement rules throw, the run ends the same way. It leaves the same entries and directories and reports the same rejected removals. |
| ThemeScaffold.RenameTemplate | 10upScaffold.js:179-187 | A rename whose source did not exist right after the clone is skipped: with neither source the tree is unchanged and the run completes. A placeholder directory that existed then but is gone when the rename acts makes the rename throw `NotFound`. |
| StarterScaffold.Run | 10up-scaffold.js:35-57 | The run stops at the guard exactly when `./project-name` exists, changing nothing. A failed clone changes nothing. |
| StarterScaffold.AfterClone | 10up-scaffold.js:51-105 | After a successful clone the run completes or the rename throws. Only `project-name/README.md` and `project-name/.git` can be reported as rejected removals. |
| StarterScaffold.AfterCloneCompletes | 10up-scaffold.js:51-105 | A clone with `README.md`, a `.git` directory and `assets`, nothing refused in `./project-name` and nothing at `new-assets` completes with nothing rejected. `README.md`, `.git` and `assets` are gone, and the entries of `assets` reappear unchanged under `new-assets`. Every other entry stays in place. A top-level dotted file holds the rewritten text unless the replacement rejects. |
| StarterScaffold.StarterStaysInside | 10up-scaffold.js:50-106 | Nothing outside `./project-name` changes. |
| StarterScaffold.StarterUnguardedSteps | 10up-scaffold.js:71-101 | A template without `.git` gets that removal reported as rejected. A template without `assets` makes the rename throw `NotFound` for `project-name/assets`. |
| StarterScaffold.StarterDeepFilesKeepText | 10up-scaffold.js:79-83 | The glob `project-name/*.*` reaches the top level only. A file one directory down or deeper, outside `assets` and `new-assets`, keeps the template's text wherever it survives. |
| StarterScaffold.StarterReplaceFailureDoesNotStop | 10up-scaffold.js:79-91 | A rejected replacement is caught. Whether it rejects changes neither the entries, nor which of them are directories, nor how the run ends, nor the rejected removals. |

`deleteFile` and `deleteDirectory` are identical in the two scripts: the
starter's copies are at `10up-scaffold.js:112-174`. The `Remove` members
model both.

## Left out

- The command line parsing and the help text of the theme script
  (`10upScaffold.js:22-52`). As written, the script never gets past
  them. Given arguments, line 27 assigns the undeclared `projectType`
  under `'use strict'`, which throws a `ReferenceError` inside the
  `commander` action. Without arguments, line 33 prints the usage and
  exits. (Line 33 also reads `reposToClone`, a name the file never
  defines.) The model describes what lines 54-190 do with a name, as if
  lines 22-52 had delivered one. The starter script reads no command
  line at all.
- All console output, the completion callbacks of `deleteFile` and
  `deleteDirectory`, and `chalk`. They produce output only.
- The network clone. `git-clone` is a `Clone` parameter: the tree it
  produced, or its error. A clone that fails halfway and leaves a partial
  directory is not modelled.
- Interleaving of the asynchronous steps. The steps are applied one after
  the other in a fixed order, described above.
- The process end after an unhandled rejection or a thrown rename error.
  A rejection is only reported. A thrown error is a status, and the
  theme's second rename is still applied after the first one throws.
- Names that contain `/`. A name is a single path segment.
- Case mapping and `\w` beyond ASCII.
- The text replacement `'Hi.'` → `'Hello!'` of the starter is modelled as
  an arbitrary `rewrite` function of a file's text. With a string pattern,
  the source rewrites only the first occurrence in each file; the model
  does not pin that down.
- Substitution.ReplaceAll: the replacement is inserted literally. The
  `$` patterns that JavaScript's `replace` expands in a replacement string
  are not modelled: `$$`, `$&`, `` $` `` and `$'`. The theme scaffold's
  replacements are the derived name tokens, so for a name containing `$`
  the model's text can differ from what the source writes.
- ThemeScaffold.ThemeStaysInside: the template is assumed to contain no
  symbolic links. A `Node` is a file or a directory. A template file that
  links outside `./<name>` and is matched by `<name>/**/*.*` would be
  read and written through the link by `replace-in-file`, changing a file
  outside `./<name>`.
- ThemeScaffold.ThemeStaysInside: the name is assumed free of glob
  metacharacters (`*`, `?`, `[`, `]`, `{`, `}`, `!`, `(`, `)`, `+`, `@`).
  `Substitution.Selects` compares the glob's first segment with the name
  literally. The source hands `<name>/**/*.*` to the glob library, so a
  name such as `a*` or `x[1]` also selects files in other directories of
  the working directory and rewrites them.
- StarterScaffold.StarterStaysInside: the same assumption of no symbolic
  links. A linked top-level file matched by `project-name/*.*` would be
  rewritten through the link.
- Remove.DeleteFile: symbolic links are not modelled. `lstat` reports a
  link as a non-directory, so the source unlinks the link itself. The model
  has no link nodes, so this case does not arise in it. The same holds for
  `Remove.DeleteDirectory` and the lemmas about both.
- Substitution.Substitute and Substitution.ApplyRules: file content is
  modelled as decoded text, and a rewrite replaces it. Both scripts read
  every selected file as UTF-8 (`encoding: 'utf8'` at
  `10upScaffold.js:167`; the starter uses the library's default). The
  library writes a file back only when its text changed. A non-UTF-8 file
  matched by `*.*`, such as `screenshot.png` or a font, is therefore
  damaged whenever it is written back: decoding puts U+FFFD in place of
  every invalid byte sequence, not only at the replaced spots. The model
  keeps such a file's other characters as they were. It does not model
  that lossy re-encoding.
- The internals of the glob library beyond the two selections stated in
  `Substitution.Selects`: no directory and no name starting with a dot.
- Substitution.ApplyRules: a rule that throws is modelled as changing no
  file. A throw part-way through its files, leaving some of them already
  rewritten, is not modelled.
- StarterScaffold.Run: the same all-or-nothing simplification for the
  starter's asynchronous `replace`. `replaceFails` either rewrites every
  selected file or none. A rejection after some files were written is not
  modelled.
- File error kinds other than missing, wrong type, non-empty, invalid
  target and refused, and file metadata.
- The unused `filesToRename` list of the theme script.

## Findings

| source | as written | input that shows it | evidently intended | confidence | as-written member | corrected member |
|---|---|---|---|---|---|---|
| 10upScaffold.js:57 | `nameCapitalize.replace( ' ', '' )` removes only the first space of the title | `my-cool-theme` gives the Pascal token `MyCool Theme`, so `TenUpThemeScaffold` is replaced by a string with a space and the translation template becomes `languages/MyCool Theme.pot` | every space removed: `MyCoolTheme` | high; not executed | Names.SingleHyphenPascal | Names.DeriveIntended |

`Names.PascalSpaces` counts the spaces that survive.
`ThemeScaffold.ScaffoldIntended` is the run on the corrected derivation.
It agrees with the run as written exactly on the names that the bug does
not affect.

=== FILE: fs.dfy ===
/**
 The filesystem the scaffolding CLI works on: a finite map from paths
 (sequences of segments, relative to the working directory) to nodes.
 The working directory itself is the empty path.
 */
module Fs {

  type Path = seq<string>

  datatype Node = File(content: string) | Dir

  type FileSystem = map<Path, Node>

  /** The errors the Node.js `fs` calls of the model can report. */
  datatype FsError =
    | NotFound(path: Path)            // ENOENT
    | NotADirectory(path: Path)       // ENOTDIR
    | IsADirectory(path: Path)        // EISDIR
    | DirectoryNotEmpty(path: Path)   // ENOTEMPTY
    | InvalidTarget(path: Path)       // EINVAL: a directory moved into itself
    | PermissionDenied(path: Path)    // EACCES / EPERM / EBUSY

  /** Settled state of a promise that carries no value. */
  datatype Outcome = Pass | Fail(error: FsError)

  datatype Result<T> = Ok(value: T) | Err(error: FsError)

  /** `q` is `p` or lies below it. */
  predicate Under(q: Path, p: Path) {
    |p| <= |q| && q[..|p|] == p
  }

  /** `c` is an entry of directory `d`. */
  predicate IsChild(c: Path, d: Path) {
    |c| == |d| + 1 && c[..|d|] == d
  }

  function Parent(p: Path): Path
    requires |p| > 0
  {
    p[..|p| - 1]
  }

  /** A real directory tree: the parent of every entry is a directory. */
  ghost predicate WellFormed(fs: FileSystem) {
    forall q :: q in fs && |q| > 0 ==> Parent(q) in fs && fs[Parent(q)].Dir?
  }

  /** The entries at or below `p`. */
  ghost function Scope(fs: FileSystem, p: Path): set<Path> {
    set q | q in fs && Under(q, p)
  }

  lemma UnderTransitive(x: Path, y: Path, z: Path)
    requires Under(x, y) && Under(y, z)
    ensures Under(x, z)
  {
    assert x[..|z|] == x[..|y|][..|z|];
  }

  /** In a well-formed tree every prefix of an entry is present, and a
      proper prefix is a directory. */
  lemma {:induction false} AncestorPresent(fs: FileSystem, x: Path, a: Path)
    requires WellFormed(fs)
    requires x in fs && Under(x, a)
    ensures a in fs
    ensures |x| > |a| ==> fs[a].Dir?
  {
    if |x| > |a| {
      var p := Parent(x);
      assert p in fs && fs[p].Dir?;
      assert Under(p, a) by {
        assert p[..|a|] == x[..|a|];
      }
      if |p| > |a| {
        AncestorPresent(fs, p, a);
      } else {
        assert p == a;
      }
    } else {
      assert x == x[..|a|];
    }
  }

  /** An entry strictly below `d` lies below the child of `d` it passes
      through, and that child is present. */
  lemma ChildOnTheWay(fs: FileSystem, x: Path, d: Path)
    requires WellFormed(fs)
    requires x in fs && Under(x, d) && |x| > |d|
    ensures x[..|d| + 1] in fs && IsChild(x[..|d| + 1], d) && Under(x, x[..|d| + 1])
  {
    var c := x[..|d| + 1];
    assert c[..|d|] == x[..|d|];
    AncestorPresent(fs, x, c);
  }
}

=== FILE: names.dfy ===
/**
 Name derivation of the scaffolding CLI: the directory name given on the
 command line is turned into the five tokens that replace the template's
 placeholders (kebab, lower snake, upper snake, title and "camel case",
 which is really Pascal case).

 Case mapping is modelled for ASCII only, which is also what the regular
 expressions `\b` and `\w` of JavaScript look at.
 */
module Names {

  predicate IsUpperAscii(c: char) { 'A' <= c <= 'Z' }

  predicate IsLowerAscii(c: char) { 'a' <= c <= 'z' }

  /** The class `\w` of JavaScript regular expressions (no `u` flag). */
  predicate IsWordChar(c: char) {
    IsUpperAscii(c) || IsLowerAscii(c) || ('0' <= c <= '9') || c == '_'
  }

  function ToUpperChar(c: char): char {
    if IsLowerAscii(c) then (c as int - 32) as char else c
  }

  function ToLowerChar(c: char): char {
    if IsUpperAscii(c) then (c as int + 32) as char else c
  }

  /** Number of occurrences of `c` in `s`. */
  function Count(s: string, c: char): nat {
    if s == [] then 0 else (if s[0] == c then 1 else 0) + Count(s[1..], c)
  }

  /** `String.prototype.toLowerCase`. */
  function Lower(s: string): (r: string)
    ensures |r| == |s|
    ensures forall i :: 0 <= i < |s| ==> r[i] == ToLowerChar(s[i])
  {
    if s == [] then [] else [ToLowerChar(s[0])] + Lower(s[1..])
  }

  /** `String.prototype.toUpperCase`. */
  function Upper(s: string): (r: string)
    ensures |r| == |s|
    ensures forall i :: 0 <= i < |s| ==> r[i] == ToUpperChar(s[i])
  {
    if s == [] then [] else [ToUpperChar(s[0])] + Upper(s[1..])
  }

  /** `s.replace(/x/g, y)` for a one-character pattern `x`. */
  function ReplaceChar(s: string, x: char, y: char): (r: string)
    ensures |r| == |s|
    ensures forall i :: 0 <= i < |s| ==> r[i] == (if s[i] == x then y else s[i])
    ensures x != y ==> x !in r
  {
    if s == [] then [] else [if s[0] == x then y else s[0]] + ReplaceChar(s[1..], x, y)
  }

  /** Position `i` of `s` matches `\b\w`: a word character that starts the
      string or follows a non-word character. */
  predicate WordStart(s: string, i: nat)
    requires i < |s|
  {
    IsWordChar(s[i]) && (i == 0 || !IsWordChar(s[i - 1]))
  }

  /** The left-to-right scan a global `\b\w` replacement performs; `afterWord`
      tells whether the character before `s` is a word character. */
  function CapitalizeAfter(s: string, afterWord: bool): (r: string)
    ensures |r| == |s|
    ensures |s| > 0 ==> r[0] == (if IsWordChar(s[0]) && !afterWord then ToUpperChar(s[0]) else s[0])
    ensures forall i :: 0 < i < |s| ==> r[i] == (if WordStart(s, i) then ToUpperChar(s[i]) else s[i])
  {
    if s == [] then []
    else
      var c := if IsWordChar(s[0]) && !afterWord then ToUpperChar(s[0]) else s[0];
      var rest := CapitalizeAfter(s[1..], IsWordChar(s[0]));
      assert forall i :: 1 < i < |s| ==> WordStart(s[1..], i - 1) == WordStart(s, i);
      [c] + rest
  }

  /** `s.replace(/\b\w/g, l => l.toUpperCase())`: every character that
      matches `\b\w` is upper-cased, every other character is kept. */
  function Capitalize(s: string): (r: string)
    ensures |r| == |s|
    ensures forall i :: 0 <= i < |s| ==> r[i] == (if WordStart(s, i) then ToUpperChar(s[i]) else s[i])
  {
    CapitalizeAfter(s, false)
  }

  /** `s.indexOf(c)`: the first position of `c`, or -1. */
  function IndexOf(s: string, c: char): (k: int)
    ensures -1 <= k < |s|
    ensures k == -1 <==> c !in s
    ensures 0 <= k ==> s[k] == c && c !in s[..k]
  {
    if s == [] then -1
    else if s[0] == c then 0
    else
      var k := IndexOf(s[1..], c);
      assert s[1..][..if k < 0 then 0 else k] == s[1..if k < 0 then 1 else k + 1];
      if k == -1 then -1 else k + 1
  }

  /** `s.replace(c, '')` with a string pattern: only the FIRST occurrence
      of `c` is removed, as `String.prototype.replace` does for a string. */
  function RemoveFirst(s: string, c: char): (r: string)
    ensures var k := IndexOf(s, c); r == if k < 0 then s else s[..k] + s[k + 1..]
    ensures |r| == if c in s then |s| - 1 else |s|
  {
    if s == [] then []
    else if s[0] == c then s[1..]
    else
      var rest := RemoveFirst(s[1..], c);
      RemoveFirstCons(s, c, rest);
      [s[0]] + rest
  }

  /** The step of `RemoveFirst` past a first character other than `c`. */
  lemma RemoveFirstCons(s: string, c: char, rest: string)
    requires |s| > 0 && s[0] != c
    requires var k := IndexOf(s[1..], c); rest == if k < 0 then s[1..] else s[1..][..k] + s[1..][k + 1..]
    ensures var k := IndexOf(s, c); [s[0]] + rest == if k < 0 then s else s[..k] + s[k + 1..]
  {
    var k := IndexOf(s[1..], c);
    if k < 0 {
      assert [s[0]] + s[1..] == s;
    } else {
      assert s[..k + 1] == [s[0]] + s[1..][..k];
      assert s[k + 2..] == s[1..][k + 1..];
    }
  }

  /** Every occurrence of `c` removed (what `replace(/ /g, '')` would do). */
  function RemoveAll(s: string, c: char): (r: string)
    ensures c !in r
    ensures |r| == |s| - Count(s, c)
  {
    if s == [] then []
    else if s[0] == c then RemoveAll(s[1..], c)
    else [s[0]] + RemoveAll(s[1..], c)
  }

  /** The five tokens derived from the directory name. */
  datatype NameSet = NameSet(
    kebab: string,       // directoryName (lower-cased)
    lowerSnake: string,  // nameUnderscores
    upperSnake: string,  // nameUnderscoresUppercase
    title: string,       // nameCapitalize
    pascal: string       // nameCamelCase
  )

  /** The title token before capitalisation: every `-` turned into a space. */
  function Spaced(kebab: string): string {
    ReplaceChar(kebab, '-', ' ')
  }

  /** `nameCapitalize`: the spaced name with every `\b\w` upper-cased. */
  function Title(kebab: string): (t: string)
    ensures |t| == |kebab| && '-' !in t
    ensures forall i :: 0 <= i < |kebab| ==>
      t[i] == (if WordStart(Spaced(kebab), i) then ToUpperChar(Spaced(kebab)[i]) else Spaced(kebab)[i])
  {
    var spaced := Spaced(kebab);
    var t := Capitalize(spaced);
    assert '-' !in t by {
      forall i | 0 <= i < |t| ensures t[i] != '-' {
        assert spaced[i] != '-';
      }
    }
    t
  }

  /** The derivation as the CLI writes it. All tokens but Pascal are as long
      as the name and free of `-`; Pascal is one shorter when the title has a
      space. */
  function Derive(name: string): (n: NameSet)
    ensures |n.kebab| == |n.lowerSnake| == |n.upperSnake| == |n.title| == |name|
    ensures '-' !in n.lowerSnake && '-' !in n.upperSnake && '-' !in n.title
    ensures |n.pascal| == if ' ' in n.title then |n.title| - 1 else |n.title|
  {
    var kebab := Lower(name);
    var lowerSnake := ReplaceChar(kebab, '-', '_');
    var upperSnake := Upper(lowerSnake);
    assert '-' !in upperSnake by {
      forall i | 0 <= i < |upperSnake| ensures upperSnake[i] != '-' {
        assert lowerSnake[i] != '-';
      }
    }
    var title := Title(kebab);
    NameSet(kebab, lowerSnake, upperSnake, title, RemoveFirst(title, ' '))
  }

  /** The derivation as evidently intended: every space of the title is
      dropped from the Pascal token. */
  function DeriveIntended(name: string): (n: NameSet)
    ensures ' ' !in n.pascal
    ensures |n.pascal| == |n.title| - Count(n.title, ' ')
    ensures n.(pascal := Derive(name).pascal) == Derive(name)
  {
    var d := Derive(name);
    d.(pascal := RemoveAll(d.title, ' '))
  }

  // ---------------------------------------------------------------------
  // Properties of the derived tokens
  // ---------------------------------------------------------------------

  lemma {:induction false} CountPositive(s: string, c: char)
    ensures c in s <==> Count(s, c) > 0
  {
    if s != [] {
      CountPositive(s[1..], c);
      assert s == [s[0]] + s[1..];
    }
  }

  /** Lower-casing twice is lower-casing once, and its result has no
      upper-case letter. */
  lemma LowerIdempotent(s: string)
    ensures Lower(Lower(s)) == Lower(s)
    ensures forall i :: 0 <= i < |s| ==> !IsUpperAscii(Lower(s)[i])
  {
  }

  /** The kebab token is the lower-cased name; lower snake replaces every
      `-` by `_` and keeps all other characters; upper snake is its
      character-wise upper-casing; all three have the same length. */
  lemma SnakeTokens(name: string)
    ensures var n := Derive(name);
      && |n.kebab| == |name| == |n.lowerSnake| == |n.upperSnake|
      && (forall i :: 0 <= i < |name| ==> n.kebab[i] == ToLowerChar(name[i]))
      && (forall i :: 0 <= i < |name| ==> n.lowerSnake[i] == (if n.kebab[i] == '-' then '_' else n.kebab[i]))
      && (forall i :: 0 <= i < |name| ==> (n.lowerSnake[i] == '_' <==> n.kebab[i] in "-_"))
      && (forall i :: 0 <= i < |name| ==> n.upperSnake[i] == ToUpperChar(n.kebab[i]) || n.kebab[i] == '-')
      && n.upperSnake == Upper(n.lowerSnake)
      && '-' !in n.upperSnake
  {
    var n := Derive(name);
    assert forall i :: 0 <= i < |n.upperSnake| ==> n.upperSnake[i] != '-';
  }

  /** The title token upper-cases exactly the lower-case letters that start a
      word of the spaced name (after a non-word character or at position 0);
      `-` becomes a space; every other character is the kebab character. */
  lemma TitleCharacters(name: string, i: nat)
    requires i < |name|
    ensures var n := Derive(name);
      && (n.kebab[i] == '-' ==> n.title[i] == ' ')
      && (IsUpperAscii(n.title[i]) <==> WordStart(Spaced(n.kebab), i) && IsLowerAscii(n.kebab[i]))
      && (n.title[i] != n.kebab[i] <==> n.kebab[i] == '-' || (WordStart(Spaced(n.kebab), i) && IsLowerAscii(n.kebab[i])))
      && (n.title[i] != n.kebab[i] && n.kebab[i] != '-' ==> n.title[i] == ToUpperChar(n.kebab[i]))
  {
    LowerIdempotent(name);
  }

  /** Spaces of the title: one per `-` and one per space of the name. */
  lemma {:induction false} TitleSpaces(kebab: string)
    ensures Count(Capitalize(Spaced(kebab)), ' ') == Count(kebab, '-') + Count(kebab, ' ')
  {
    CapitalizedSpaces(Spaced(kebab));
    SpacedCount(kebab);
  }

  lemma {:induction false} SpacedCount(kebab: string)
    ensures Count(Spaced(kebab), ' ') == Count(kebab, '-') + Count(kebab, ' ')
  {
    if kebab != [] {
      SpacedCount(kebab[1..]);
      assert Spaced(kebab) == [Spaced(kebab)[0]] + Spaced(kebab[1..]);
      assert Spaced(kebab)[1..] == Spaced(kebab[1..]);
    }
  }

  lemma {:induction false} CapitalizedSpaces(s: string)
    ensures Count(Capitalize(s), ' ') == Count(s, ' ')
  {
    SameSpaces(s, Capitalize(s));
  }

  lemma {:induction false} SameSpaces(s: string, t: string)
    requires |s| == |t|
    requires forall i :: 0 <= i < |s| ==> (s[i] == ' ' <==> t[i] == ' ')
    ensures Count(s, ' ') == Count(t, ' ')
  {
    if s != [] {
      SameSpaces(s[1..], t[1..]);
    }
  }

  /** Removing the first space removes exactly one space, if there is one. */
  lemma {:induction false} RemoveFirstSpaces(s: string, c: char)
    ensures Count(RemoveFirst(s, c), c) == if Count(s, c) > 0 then Count(s, c) - 1 else 0
  {
    if s != [] {
      RemoveFirstSpaces(s[1..], c);
      if s[0] != c {
        assert RemoveFirst(s, c)[1..] == RemoveFirst(s[1..], c);
      }
    }
  }

  /** The Pascal token keeps every space of the title but the first:
      "my-cool-theme" leaves one space behind. */
  lemma PascalSpaces(name: string)
    ensures var n := Derive(name);
      Count(n.pascal, ' ') == if Count(n.kebab, '-') + Count(n.kebab, ' ') > 0
                              then Count(n.kebab, '-') + Count(n.kebab, ' ') - 1 else 0
  {
    var n := Derive(name);
    TitleSpaces(n.kebab);
    RemoveFirstSpaces(n.title, ' ');
  }

  /** A name with a single hyphen (and no space) yields a Pascal token with no
      space at all; with two or more hyphens a space survives, so
      "my-cool-theme" gives "MyCool Theme" and not "MyCoolTheme". */
  lemma SingleHyphenPascal(name: string)
    requires ' ' !in name
    ensures var n := Derive(name);
      (Count(name, '-') <= 1 ==> ' ' !in n.pascal) && (Count(name, '-') >= 2 ==> ' ' in n.pascal)
  {
    var n := Derive(name);
    PascalSpaces(name);
    CountPositive(n.pascal, ' ');
    CountPositive(name, ' ');
    LowerKeeps(name, '-');
    LowerKeeps(name, ' ');
  }

  /** Lower-casing does not create or destroy a non-letter character. */
  lemma {:induction false} LowerKeeps(s: string, c: char)
    requires !IsUpperAscii(c) && !IsLowerAscii(c)
    ensures Count(Lower(s), c) == Count(s, c)
  {
    if s != [] {
      LowerKeeps(s[1..], c);
      assert Lower(s)[1..] == Lower(s[1..]);
    }
  }

  /** The two derivations agree exactly when the name has at most one
      separator (`-` or space), that is when the title has at most one
      space. */
  lemma IntendedAgrees(name: string)
    ensures DeriveIntended(name) == Derive(name) <==> Count(Lower(name), '-') + Count(Lower(name), ' ') <= 1
  {
    var n := Derive(name);
    if Count(Lower(name), '-') + Count(Lower(name), ' ') <= 1 {
      TitleSpaces(n.kebab);
      RemoveFirstAgrees(n.title, ' ');
    } else {
      PascalSpaces(name);
      CountPositive(n.pascal, ' ');
    }
  }

  lemma {:induction false} RemoveFirstAgrees(s: string, c: char)
    requires Count(s, c) <= 1
    ensures RemoveFirst(s, c) == RemoveAll(s, c)
  {
    if s != [] {
      RemoveFirstAgrees(s[1..], c);
      if s[0] == c {
        CountPositive(s[1..], c);
        NoneRemoved(s[1..], c);
      }
    }
  }

  lemma {:induction false} NoneRemoved(s: string, c: char)
    requires c !in s
    ensures RemoveAll(s, c) == s
  {
    if s != [] {
      NoneRemoved(s[1..], c);
    }
  }
}

=== FILE: remove.dfy ===
/**
 Recursive removal: `deleteFile` and `deleteDirectory`, identical in both
 scripts of the CLI.

 `deleteFile(dir, file)` runs `lstat` on `dir/file`, rejects when that
 fails, delegates to `deleteDirectory` for a directory and `unlink`s
 anything else. `deleteDirectory(dir)` rejects when `access` fails, lists
 the entries with `readdir`, starts a `deleteFile` for every entry and joins
 them with `Promise.all`; only when all of them resolved does it `rmdir`
 the directory. The entries are removed concurrently: every one of them is
 attempted, and the join fails when any of them failed.

 The operating system's refusals are a parameter: `denied` holds the paths
 whose `unlink` or `rmdir` is refused (permissions, a busy mount, ...).
 The order `readdir` lists entries in is not known, so `ReadDir` picks an
 arbitrary one; `DeleteFileRemoves` shows the final tree does not depend
 on it.
 */
module Remove {
  import opened Fs

  /** The tree after a removal, the entries it removed in the order they
      went, and how the returned promise settles. */
  datatype Removal = Removal(fs: FileSystem, log: seq<Path>, outcome: Outcome)

  /** No entry is removed after one of its ancestors: a directory goes only
      once everything below it has gone. */
  ghost predicate PostOrder(log: seq<Path>) {
    forall i, j :: 0 <= i < j < |log| ==> !Under(log[j], log[i])
  }

  /** `after` is `fs` with some entries at or below `p` removed and nothing
      else changed; `log` lists exactly the removed entries, in post-order. */
  ghost predicate RemovedBelow(fs: FileSystem, after: FileSystem, log: seq<Path>, p: Path) {
    && (forall q :: q in after ==> q in fs && after[q] == fs[q])
    && (forall q :: q in fs && !Under(q, p) ==> q in after)
    && (forall i :: 0 <= i < |log| ==> log[i] in fs && log[i] !in after)
    && (forall q :: q in fs && q !in after ==> q in log)
    && PostOrder(log)
  }

  ghost predicate Distinct(cs: seq<Path>) {
    forall i, j :: 0 <= i < j < |cs| ==> cs[i] != cs[j]
  }

  ghost function SetToSeq(s: set<Path>): (r: seq<Path>)
    ensures forall x :: x in r <==> x in s
    ensures Distinct(r)
  {
    if s == {} then []
    else
      var x :| x in s;
      [x] + SetToSeq(s - {x})
  }

  /** `readdir`: the entries of `d`, each once, in some order. */
  ghost function ReadDir(fs: FileSystem, d: Path): (cs: seq<Path>)
    ensures forall c :: c in cs <==> c in fs && IsChild(c, d)
    ensures Distinct(cs)
  {
    SetToSeq(set c | c in fs && IsChild(c, d))
  }

  /** `deleteFile(dir, file)` with `p` the joined path. */
  ghost function DeleteFile(fs: FileSystem, denied: set<Path>, p: Path): (r: Removal)
    ensures RemovedBelow(fs, r.fs, r.log, p)
    ensures p !in fs ==> r == Removal(fs, [], Fail(NotFound(p)))
    ensures r.outcome.Pass? ==> p !in r.fs
    decreases Scope(fs, p), 2
  {
    if p !in fs then Removal(fs, [], Fail(NotFound(p)))                 // lstat fails
    else if fs[p].Dir? then DeleteDirectory(fs, denied, p)
    else if p in denied then Removal(fs, [], Fail(PermissionDenied(p)))  // unlink fails
    else Removal(fs - {p}, [p], Pass)
  }

  /** `deleteDirectory(d)`. */
  ghost function DeleteDirectory(fs: FileSystem, denied: set<Path>, d: Path): (r: Removal)
    ensures RemovedBelow(fs, r.fs, r.log, d)
    ensures d !in fs ==> r == Removal(fs, [], Fail(NotFound(d)))
    ensures r.outcome.Pass? ==> forall q :: q in r.fs ==> !Under(q, d)
    decreases Scope(fs, d), 1
  {
    if d !in fs then Removal(fs, [], Fail(NotFound(d)))                 // access fails
    else if fs[d].File? then Removal(fs, [], Fail(NotADirectory(d)))    // readdir fails
    else Rmdir(fs, denied, d, DeleteEach(fs, denied, d, ReadDir(fs, d)))
  }

  /** What follows the join of the entry removals of `d`: a rejection is
      passed on (`.catch(reject)`); otherwise `rmdir` runs, which fails when
      something is still below `d` or the directory is refused. */
  ghost function Rmdir(fs: FileSystem, denied: set<Path>, d: Path, entries: Removal): (r: Removal)
    requires RemovedBelow(fs, entries.fs, entries.log, d) && d in entries.fs
    ensures RemovedBelow(fs, r.fs, r.log, d)
    ensures r.outcome.Pass? ==> forall q :: q in r.fs ==> !Under(q, d)
  {
    if entries.outcome.Fail? then entries
    else if exists q :: q in entries.fs && Under(q, d) && q != d then
      Removal(entries.fs, entries.log, Fail(DirectoryNotEmpty(d)))
    else if d in denied then
      Removal(entries.fs, entries.log, Fail(PermissionDenied(d)))
    else
      RmdirAfterEntries(fs, entries.fs, entries.log, d);
      Removal(entries.fs - {d}, entries.log + [d], Pass)
  }

  /** Removing `d` once the entries below it are gone keeps the log in
      post-order. */
  lemma RmdirAfterEntries(fs: FileSystem, after: FileSystem, log: seq<Path>, d: Path)
    requires RemovedBelow(fs, after, log, d) && d in after
    ensures RemovedBelow(fs, after - {d}, log + [d], d)
  {
    var log' := log + [d];
    forall i, j | 0 <= i < j < |log'| ensures !Under(log'[j], log'[i]) {
      if j == |log| {
        assert log[i] != d;
      }
    }
  }

  /** The `deleteFile` calls `Promise.all` joins: every entry in `cs` is
      attempted; the join fails when one of them failed. */
  ghost function DeleteEach(fs: FileSystem, denied: set<Path>, d: Path, cs: seq<Path>): (r: Removal)
    requires d in fs
    requires forall i :: 0 <= i < |cs| ==> IsChild(cs[i], d)
    requires Distinct(cs)
    ensures RemovedBelow(fs, r.fs, r.log, d) && d in r.fs
    ensures forall i :: 0 <= i < |r.log| ==> |r.log[i]| > |d| && r.log[i][..|d| + 1] in cs
    decreases Scope(fs, d), 0, |cs|
  {
    if cs == [] then Removal(fs, [], Pass)
    else
      ScopeOfEntry(fs, d, cs[0]);
      var first := DeleteFile(fs, denied, cs[0]);
      ScopeOfSubmap(fs, first.fs, d);
      var rest := DeleteEach(first.fs, denied, d, cs[1..]);
      JoinLogs(fs, first.fs, rest.fs, first.log, rest.log, d, cs);
      Removal(rest.fs, first.log + rest.log, if first.outcome.Fail? then first.outcome else rest.outcome)
  }

  lemma ScopeOfEntry(fs: FileSystem, d: Path, c: Path)
    requires d in fs && IsChild(c, d)
    ensures Scope(fs, c) < Scope(fs, d)
  {
    forall q | q in Scope(fs, c) ensures q in Scope(fs, d) {
      UnderTransitive(q, c, d);
    }
    assert d !in Scope(fs, c);
  }

  lemma ScopeOfSubmap(fs: FileSystem, after: FileSystem, d: Path)
    requires forall q :: q in after ==> q in fs
    ensures Scope(after, d) <= Scope(fs, d)
  {
  }

  /** The removals below the first entry of `d`, followed by those below the
      other entries, remove entries below `d` in post-order. */
  lemma JoinLogs(fs: FileSystem, mid: FileSystem, after: FileSystem, log1: seq<Path>, log2: seq<Path>,
                 d: Path, cs: seq<Path>)
    requires d in fs && |cs| > 0
    requires forall i :: 0 <= i < |cs| ==> IsChild(cs[i], d)
    requires Distinct(cs)
    requires RemovedBelow(fs, mid, log1, cs[0])
    requires RemovedBelow(mid, after, log2, d) && d in after
    requires forall i :: 0 <= i < |log2| ==> |log2[i]| > |d| && log2[i][..|d| + 1] in cs[1..]
    ensures RemovedBelow(fs, after, log1 + log2, d)
    ensures forall i :: 0 <= i < |log1 + log2| ==>
      |(log1 + log2)[i]| > |d| && (log1 + log2)[i][..|d| + 1] in cs
  {
    var log := log1 + log2;
    forall i | 0 <= i < |log1| ensures |log1[i]| > |d| && log1[i][..|d| + 1] == cs[0] {
      assert log1[i] in fs && log1[i] !in mid;
      assert Under(log1[i], cs[0]);
      assert log1[i][..|d| + 1] == log1[i][..|cs[0]|];
    }
    forall i | 0 <= i < |log2| ensures !Under(log2[i], cs[0]) {
      var k :| 1 <= k < |cs| && log2[i][..|d| + 1] == cs[k];
      assert cs[0] != cs[k];
    }
    forall i, j | 0 <= i < j < |log| ensures !Under(log[j], log[i]) {
      if i < |log1| <= j {
        if Under(log[j], log[i]) {
          UnderTransitive(log[j], log[i], cs[0]);
        }
      }
    }
    forall q | q in fs && !Under(q, d) ensures q in after {
      if !Under(q, cs[0]) {
        assert q in mid;
      } else {
        UnderTransitive(q, cs[0], d);
      }
    }
  }

  // ---------------------------------------------------------------------
  // What a removal takes away, independently of the order of the entries
  // ---------------------------------------------------------------------

  /** Nothing at or below `q` is refused by the operating system. */
  ghost predicate Clear(fs: FileSystem, denied: set<Path>, q: Path) {
    forall x :: x in fs && Under(x, q) ==> x !in denied
  }

  /** The entries a removal of `p` takes away: those at or below `p` whose
      own subtree holds nothing refused. */
  ghost function Removable(fs: FileSystem, denied: set<Path>, p: Path): set<Path> {
    set q | q in fs && Under(q, p) && Clear(fs, denied, q)
  }

  /** Below a clear entry everything is clear. */
  lemma ClearBelow(fs: FileSystem, denied: set<Path>, q: Path, x: Path)
    requires Clear(fs, denied, q) && Under(x, q)
    ensures Clear(fs, denied, x)
  {
    forall y | y in fs && Under(y, x) ensures y !in denied {
      UnderTransitive(y, x, q);
    }
  }

  /** Taking away a set of entries closed under descendants leaves a
      well-formed tree. */
  lemma RemovingClearKeepsWellFormed(fs: FileSystem, denied: set<Path>, p: Path, after: FileSystem)
    requires WellFormed(fs)
    requires forall q :: q in after ==> q in fs && after[q] == fs[q]
    requires forall q :: q in fs ==> (q in after <==> !(Under(q, p) && Clear(fs, denied, q)))
    ensures WellFormed(after)
  {
    forall q | q in after && |q| > 0 ensures Parent(q) in after && after[Parent(q)].Dir? {
      var u := Parent(q);
      assert Under(q, u);
      if u !in after {
        UnderTransitive(q, u, p);
        ClearBelow(fs, denied, u, q);
      }
    }
  }

  /** A file has nothing below it. */
  lemma FileIsLeaf(fs: FileSystem, p: Path, x: Path)
    requires WellFormed(fs) && p in fs && fs[p].File?
    requires x in fs && Under(x, p)
    ensures x == p
  {
    if |x| > |p| {
      AncestorPresent(fs, x, p);
    } else {
      assert x == x[..|p|];
    }
  }

  /** `deleteFile` of an existing entry succeeds exactly when nothing below
      it is refused, and takes away exactly the entries below it whose own
      subtree holds nothing refused: a failing entry keeps its ancestors,
      its siblings still go. */
  lemma {:induction false} DeleteFileRemoves(fs: FileSystem, denied: set<Path>, p: Path)
    requires WellFormed(fs) && p in fs
    ensures DeleteFile(fs, denied, p).outcome.Pass? <==> Clear(fs, denied, p)
    ensures forall q :: q in fs ==>
      (q in DeleteFile(fs, denied, p).fs <==> !(Under(q, p) && Clear(fs, denied, q)))
    decreases Scope(fs, p), 2
  {
    if fs[p].Dir? {
      DeleteDirectoryRemoves(fs, denied, p);
    } else {
      forall x | x in fs && Under(x, p) ensures x == p {
        FileIsLeaf(fs, p, x);
      }
    }
  }

  /** `deleteDirectory` of an existing directory: same characterisation. */
  lemma {:induction false} DeleteDirectoryRemoves(fs: FileSystem, denied: set<Path>, d: Path)
    requires WellFormed(fs) && d in fs && fs[d].Dir?
    ensures DeleteDirectory(fs, denied, d).outcome.Pass? <==> Clear(fs, denied, d)
    ensures forall q :: q in fs ==>
      (q in DeleteDirectory(fs, denied, d).fs <==> !(Under(q, d) && Clear(fs, denied, q)))
    decreases Scope(fs, d), 1
  {
    var cs := ReadDir(fs, d);
    ReadDirListsBelow(fs, d);
    DeleteEachRemoves(fs, denied, d, cs);
    RmdirRemoves(fs, denied, d, cs, DeleteEach(fs, denied, d, cs));
  }

  lemma RmdirRemoves(fs: FileSystem, denied: set<Path>, d: Path, cs: seq<Path>, entries: Removal)
    requires d in fs
    requires RemovedBelow(fs, entries.fs, entries.log, d) && d in entries.fs
    requires forall i :: 0 <= i < |cs| ==> IsChild(cs[i], d)
    requires forall q :: q in fs && Under(q, d) && q != d ==>
      |q| > |d| && q[..|d| + 1] in cs && Under(q, q[..|d| + 1])
    requires entries.outcome.Pass? <==> forall k :: 0 <= k < |cs| ==> Clear(fs, denied, cs[k])
    requires forall q :: q in fs ==>
      (q in entries.fs <==> !(|q| > |d| && q[..|d| + 1] in cs && Clear(fs, denied, q)))
    ensures Rmdir(fs, denied, d, entries).outcome.Pass? <==> Clear(fs, denied, d)
    ensures forall q :: q in fs ==>
      (q in Rmdir(fs, denied, d, entries).fs <==> !(Under(q, d) && Clear(fs, denied, q)))
  {
    if entries.outcome.Fail? {
      RefusedEntry(fs, denied, d, cs);
    } else {
      AllEntriesClear(fs, denied, d, cs, entries.fs);
    }
  }

  /** Every entry strictly below `d` hangs off one of the entries `readdir`
      lists. */
  lemma ReadDirListsBelow(fs: FileSystem, d: Path)
    requires WellFormed(fs) && d in fs
    ensures forall i :: 0 <= i < |ReadDir(fs, d)| ==> ReadDir(fs, d)[i] in fs && IsChild(ReadDir(fs, d)[i], d)
    ensures forall q :: q in fs && Under(q, d) && q != d ==>
      |q| > |d| && q[..|d| + 1] in ReadDir(fs, d) && Under(q, q[..|d| + 1])
  {
    var cs := ReadDir(fs, d);
    forall i | 0 <= i < |cs| ensures cs[i] in fs && IsChild(cs[i], d) {
      assert cs[i] in cs;
    }
    forall q | q in fs && Under(q, d) && q != d
      ensures |q| > |d| && q[..|d| + 1] in cs && Under(q, q[..|d| + 1])
    {
      ChildOnTheWay(fs, q, d);
    }
  }

  /** One entry is not clear: then neither is the directory. */
  lemma RefusedEntry(fs: FileSystem, denied: set<Path>, d: Path, cs: seq<Path>)
    requires forall i :: 0 <= i < |cs| ==> IsChild(cs[i], d)
    requires !forall k :: 0 <= k < |cs| ==> Clear(fs, denied, cs[k])
    ensures !Clear(fs, denied, d)
  {
    var k :| 0 <= k < |cs| && !Clear(fs, denied, cs[k]);
    var x :| x in fs && Under(x, cs[k]) && x in denied;
    UnderTransitive(x, cs[k], d);
  }

  /** Every entry is clear: then nothing strictly below `d` is left, and the
      directory is clear unless it is refused itself. */
  lemma AllEntriesClear(fs: FileSystem, denied: set<Path>, d: Path, cs: seq<Path>, after: FileSystem)
    requires d in fs
    requires forall i :: 0 <= i < |cs| ==> IsChild(cs[i], d)
    requires forall k :: 0 <= k < |cs| ==> Clear(fs, denied, cs[k])
    requires forall q :: q in fs && Under(q, d) && q != d ==>
      |q| > |d| && q[..|d| + 1] in cs && Under(q, q[..|d| + 1])
    requires forall q :: q in after ==> q in fs
    requires forall q :: q in fs ==> (q in after <==> !(|q| > |d| && q[..|d| + 1] in cs && Clear(fs, denied, q)))
    ensures forall q :: q in fs && Under(q, d) && q != d ==> Clear(fs, denied, q)
    ensures !exists q :: q in after && Under(q, d) && q != d
    ensures Clear(fs, denied, d) <==> d !in denied
  {
    forall q | q in fs && Under(q, d) && q != d ensures Clear(fs, denied, q) {
      var c := q[..|d| + 1];
      var k :| 0 <= k < |cs| && cs[k] == c;
      ClearBelow(fs, denied, c, q);
    }
    if d !in denied {
      forall x | x in fs && Under(x, d) ensures x !in denied {
        if x != d {
          assert Clear(fs, denied, x);
          assert Under(x, x);
        }
      }
    } else {
      assert Under(d, d);
    }
  }

  /** The joined removals of the entries `cs` of `d`: they succeed exactly
      when every entry is clear, and take away exactly the clear entries
      below one of `cs`. */
  lemma {:induction false} DeleteEachRemoves(fs: FileSystem, denied: set<Path>, d: Path, cs: seq<Path>)
    requires WellFormed(fs) && d in fs && fs[d].Dir?
    requires forall i :: 0 <= i < |cs| ==> cs[i] in fs && IsChild(cs[i], d)
    requires Distinct(cs)
    ensures DeleteEach(fs, denied, d, cs).outcome.Pass? <==>
      forall k :: 0 <= k < |cs| ==> Clear(fs, denied, cs[k])
    ensures forall q :: q in fs ==>
      (q in DeleteEach(fs, denied, d, cs).fs <==>
       !(|q| > |d| && q[..|d| + 1] in cs && Clear(fs, denied, q)))
    decreases Scope(fs, d), 0, |cs|
  {
    if cs != [] {
      var c := cs[0];
      ScopeOfEntry(fs, d, c);
      var first := DeleteFile(fs, denied, c);
      DeleteFileRemoves(fs, denied, c);
      var mid := first.fs;
      EachPrepare(fs, denied, d, cs, mid);
      var rest := DeleteEach(mid, denied, d, cs[1..]);
      DeleteEachRemoves(mid, denied, d, cs[1..]);
      JoinOutcome(fs, mid, denied, d, cs, first.outcome.Pass?, rest.outcome.Pass?);
      JoinKeys(fs, mid, rest.fs, denied, d, cs);
    }
  }

  /** After the first entry's removal the other entries can be removed in
      turn: the tree is still well formed, `d` is still a directory holding
      them, and nothing below them has changed. */
  lemma EachPrepare(fs: FileSystem, denied: set<Path>, d: Path, cs: seq<Path>, mid: FileSystem)
    requires WellFormed(fs) && d in fs && fs[d].Dir?
    requires |cs| > 0
    requires forall i :: 0 <= i < |cs| ==> cs[i] in fs && IsChild(cs[i], d)
    requires Distinct(cs)
    requires forall q :: q in mid ==> q in fs && mid[q] == fs[q]
    requires forall q :: q in fs ==> (q in mid <==> !(Under(q, cs[0]) && Clear(fs, denied, q)))
    ensures WellFormed(mid) && d in mid && mid[d].Dir?
    ensures Scope(mid, d) <= Scope(fs, d)
    ensures Distinct(cs[1..])
    ensures forall i :: 0 <= i < |cs[1..]| ==> cs[1..][i] in mid && IsChild(cs[1..][i], d)
    ensures forall q :: q in fs && |q| > |d| && q[..|d| + 1] in cs[1..] ==>
      q in mid && (Clear(mid, denied, q) <==> Clear(fs, denied, q))
  {
    RemovingClearKeepsWellFormed(fs, denied, cs[0], mid);
    ScopeOfSubmap(fs, mid, d);
    OtherEntriesUntouched(fs, denied, d, cs, mid);
    assert !Under(d, cs[0]) by { assert |cs[0]| > |d|; }
  }

  /** Removing below the first entry leaves everything below the other
      entries as it was. */
  lemma OtherEntriesUntouched(fs: FileSystem, denied: set<Path>, d: Path, cs: seq<Path>, mid: FileSystem)
    requires |cs| > 0
    requires forall i :: 0 <= i < |cs| ==> cs[i] in fs && IsChild(cs[i], d)
    requires Distinct(cs)
    requires forall q :: q in mid ==> q in fs
    requires forall q :: q in fs ==> (q in mid <==> !(Under(q, cs[0]) && Clear(fs, denied, q)))
    ensures forall i :: 0 <= i < |cs[1..]| ==> cs[1..][i] in mid && IsChild(cs[1..][i], d)
    ensures forall q :: q in fs && |q| > |d| && q[..|d| + 1] in cs[1..] ==>
      q in mid && (Clear(mid, denied, q) <==> Clear(fs, denied, q))
  {
    var c := cs[0];
    forall q | q in fs && |q| > |d| && q[..|d| + 1] in cs[1..]
      ensures q in mid && (Clear(mid, denied, q) <==> Clear(fs, denied, q))
    {
      var k :| 1 <= k < |cs| && q[..|d| + 1] == cs[k];
      assert cs[k] != c;
      assert !Under(q, c) by {
        assert c[..|d| + 1] == c;
      }
      forall x | x in fs && Under(x, q) ensures x in mid {
        assert x[..|d| + 1] == q[..|d| + 1];
        assert !Under(x, c) by {
          assert c[..|d| + 1] == c;
        }
      }
    }
    forall i | 0 <= i < |cs[1..]| ensures cs[1..][i] in mid && IsChild(cs[1..][i], d) {
      assert cs[1..][i] == cs[i + 1];
      assert cs[i + 1][..|d| + 1] == cs[i + 1];
    }
  }

  /** The joined promise succeeds exactly when every entry is clear. */
  lemma JoinOutcome(fs: FileSystem, mid: FileSystem, denied: set<Path>, d: Path, cs: seq<Path>,
                    firstPass: bool, restPass: bool)
    requires |cs| > 0
    requires forall i :: 0 <= i < |cs| ==> IsChild(cs[i], d)
    requires firstPass <==> Clear(fs, denied, cs[0])
    requires restPass <==> forall k :: 0 <= k < |cs[1..]| ==> Clear(mid, denied, cs[1..][k])
    requires forall q :: q in fs && |q| > |d| && q[..|d| + 1] in cs[1..] ==>
      q in mid && (Clear(mid, denied, q) <==> Clear(fs, denied, q))
    requires forall i :: 0 <= i < |cs[1..]| ==> cs[1..][i] in mid
    requires forall q :: q in mid ==> q in fs
    ensures (firstPass && restPass) <==> forall k :: 0 <= k < |cs| ==> Clear(fs, denied, cs[k])
  {
    forall k | 1 <= k < |cs| ensures Clear(mid, denied, cs[k]) <==> Clear(fs, denied, cs[k]) {
      assert cs[k] == cs[1..][k - 1];
      assert cs[k][..|d| + 1] == cs[k];
    }
    assert forall k :: 1 <= k < |cs| ==> cs[k] == cs[1..][k - 1];
  }

  /** The entries left after the joined removals. */
  lemma JoinKeys(fs: FileSystem, mid: FileSystem, after: FileSystem, denied: set<Path>, d: Path, cs: seq<Path>)
    requires |cs| > 0
    requires forall i :: 0 <= i < |cs| ==> IsChild(cs[i], d)
    requires Distinct(cs)
    requires forall q :: q in mid ==> q in fs
    requires forall q :: q in after ==> q in mid
    requires forall q :: q in fs ==> (q in mid <==> !(Under(q, cs[0]) && Clear(fs, denied, q)))
    requires forall q :: q in fs && |q| > |d| && q[..|d| + 1] in cs[1..] ==>
      q in mid && (Clear(mid, denied, q) <==> Clear(fs, denied, q))
    requires forall q :: q in mid ==>
      (q in after <==> !(|q| > |d| && q[..|d| + 1] in cs[1..] && Clear(mid, denied, q)))
    ensures forall q :: q in fs ==>
      (q in after <==> !(|q| > |d| && q[..|d| + 1] in cs && Clear(fs, denied, q)))
  {
    var c := cs[0];
    assert c[..|d| + 1] == c;
    forall q | q in fs
      ensures q in after <==> !(|q| > |d| && q[..|d| + 1] in cs && Clear(fs, denied, q))
    {
      if |q| > |d| && q[..|d| + 1] == c {
        assert Under(q, c);
        assert c !in cs[1..] by {
          forall k | 1 <= k < |cs| ensures cs[k] != c {
            assert cs[0] != cs[k];
          }
        }
      } else {
        assert q in mid;
        assert (|q| > |d| && q[..|d| + 1] in cs) <==> (|q| > |d| && q[..|d| + 1] in cs[1..]);
      }
    }
  }

  /** Corollary: the tree after `deleteFile` of an existing entry, as a map. */
  lemma DeleteFileResult(fs: FileSystem, denied: set<Path>, p: Path)
    requires WellFormed(fs) && p in fs
    ensures DeleteFile(fs, denied, p).fs == fs - Removable(fs, denied, p)
    ensures DeleteFile(fs, denied, p).outcome.Pass? ==> Scope(DeleteFile(fs, denied, p).fs, p) == {}
  {
    DeleteFileRemoves(fs, denied, p);
  }
}

=== FILE: rename.dfy ===
/**
 `fs.rename(src, dst)` of Node.js, with the POSIX `rename(2)` rules that
 decide whether it fails: a missing source, a missing or non-directory
 parent of the target, moving a directory into itself or onto one of its
 ancestors, replacing a non-empty directory, or mixing a file and a
 directory. A target that is a file (for a file) or an empty directory
 (for a directory) is replaced.
 */
module Renaming {
  import opened Fs

  /** Where an entry at or below `src` lands when `src` becomes `dst`. */
  function Rebase(x: Path, src: Path, dst: Path): Path
    requires Under(x, src)
  {
    dst + x[|src|..]
  }

  lemma RebaseUnder(x: Path, src: Path, dst: Path)
    requires Under(x, src)
    ensures Under(Rebase(x, src, dst), dst)
    ensures Rebase(x, src, dst)[..|dst|] == dst && Rebase(x, src, dst)[|dst|..] == x[|src|..]
    ensures src + Rebase(x, src, dst)[|dst|..] == x
  {
    assert x == x[..|src|] + x[|src|..];
  }

  lemma RebaseInjective(src: Path, dst: Path)
    ensures forall x, y :: Under(x, src) && Under(y, src) && Rebase(x, src, dst) == Rebase(y, src, dst) ==> x == y
  {
    forall x, y | Under(x, src) && Under(y, src) && Rebase(x, src, dst) == Rebase(y, src, dst)
      ensures x == y
    {
      RebaseUnder(x, src, dst);
      RebaseUnder(y, src, dst);
    }
  }

  /** The tree with the subtree at `src` moved to `dst`, replacing whatever
      was at or below `dst`. */
  function Move(fs: FileSystem, src: Path, dst: Path): (r: FileSystem)
  {
    RebaseInjective(src, dst);
    var kept := map q | q in fs && !Under(q, src) && !Under(q, dst) :: fs[q];
    var moved := map x | x in fs && Under(x, src) :: Rebase(x, src, dst) := fs[x];
    kept + moved
  }

  /** `r` is `fs` with the subtree at `src` moved to `dst`: the entries
      outside both are untouched, each entry below `src` reappears below
      `dst` with its node, nothing else is below `dst`, and nothing is left
      below `src`. */
  ghost predicate MovedTo(fs: FileSystem, r: FileSystem, src: Path, dst: Path) {
    && (forall q :: !Under(q, src) && !Under(q, dst) ==> (q in r <==> q in fs))
    && (forall q :: q in r && !Under(q, src) && !Under(q, dst) ==> r[q] == fs[q])
    && (forall x :: x in fs && Under(x, src) ==>
          Rebase(x, src, dst) in r && r[Rebase(x, src, dst)] == fs[x])
    && (forall q :: q in r && Under(q, dst) ==>
          src + q[|dst|..] in fs && r[q] == fs[src + q[|dst|..]])
    && (forall q :: q in r ==> !Under(q, src))
  }

  /** The checks `rename(2)` makes before it moves anything, in the order
      the model reports them; `Pass` when the move may go ahead. */
  function Refusal(fs: FileSystem, denied: set<Path>, src: Path, dst: Path): Outcome {
    if src !in fs then Fail(NotFound(src))
    else if src == dst then Pass
    else if |dst| == 0 then Fail(InvalidTarget(dst))
    else if Parent(dst) !in fs then Fail(NotFound(Parent(dst)))
    else if fs[Parent(dst)].File? then Fail(NotADirectory(Parent(dst)))
    else if Under(dst, src) then Fail(InvalidTarget(dst))
    else if Under(src, dst) then Fail(DirectoryNotEmpty(dst))
    else if src in denied then Fail(PermissionDenied(src))
    else if dst in fs && fs[src].File? && fs[dst].Dir? then Fail(IsADirectory(dst))
    else if dst in fs && fs[src].Dir? && fs[dst].File? then Fail(NotADirectory(dst))
    else if exists q :: q in fs.Keys && Under(q, dst) && q != dst then Fail(DirectoryNotEmpty(dst))
    else Pass
  }

  /** `fs.rename(src, dst)`; `denied` holds the entries the operating system
      refuses to move. */
  function Rename(fs: FileSystem, denied: set<Path>, src: Path, dst: Path): (r: Result<FileSystem>)
    ensures src !in fs ==> r == Err(NotFound(src))
    ensures r.Ok? ==> src in fs
    ensures r.Ok? && src != dst ==> MovedTo(fs, r.value, src, dst)
    ensures r.Ok? && src == dst ==> r.value == fs
  {
    match Refusal(fs, denied, src, dst)
    case Fail(e) => Err(e)
    case Pass =>
      if src == dst then Ok(fs)
      else
        MoveIsMovedTo(fs, src, dst);
        Ok(Move(fs, src, dst))
  }

  lemma MoveIsMovedTo(fs: FileSystem, src: Path, dst: Path)
    requires !Under(dst, src) && !Under(src, dst)
    ensures MovedTo(fs, Move(fs, src, dst), src, dst)
  {
    var r := Move(fs, src, dst);
    RebaseInjective(src, dst);
    forall x | x in fs && Under(x, src)
      ensures Rebase(x, src, dst) in r && r[Rebase(x, src, dst)] == fs[x]
    {
      RebaseUnder(x, src, dst);
    }
    forall q | q in r && Under(q, dst) ensures src + q[|dst|..] in fs && r[q] == fs[src + q[|dst|..]] {
      var x :| x in fs && Under(x, src) && q == Rebase(x, src, dst);
      RebaseUnder(x, src, dst);
    }
    forall q | q in r ensures !Under(q, src) {
      if Under(q, dst) {
        var x :| x in fs && Under(x, src) && q == Rebase(x, src, dst);
        if Under(q, src) {
          Comparable(q, src, dst);
        }
      }
    }
  }

  /** Moving a subtree to a fresh place and back restores the tree. */
  lemma MoveBack(fs: FileSystem, src: Path, dst: Path)
    requires !Under(dst, src) && !Under(src, dst)
    requires forall q :: q in fs ==> !Under(q, dst)
    ensures Move(Move(fs, src, dst), dst, src) == fs
  {
    var m := Move(fs, src, dst);
    MoveIsMovedTo(fs, src, dst);
    MoveIsMovedTo(m, dst, src);
    Restored(fs, m, Move(m, dst, src), src, dst);
  }

  /** A move there and back, stated through `MovedTo` alone. */
  lemma Restored(fs: FileSystem, m: FileSystem, b: FileSystem, src: Path, dst: Path)
    requires MovedTo(fs, m, src, dst) && MovedTo(m, b, dst, src)
    requires forall x :: x in fs ==> !Under(x, dst)
    ensures b == fs
  {
    forall q | Under(q, src)
      ensures q in b <==> q in fs
      ensures q in b ==> b[q] == fs[q]
    {
      MoveBackBelow(fs, m, b, src, dst, q);
    }
    forall q | !Under(q, src)
      ensures q in b <==> q in fs
      ensures q in b ==> b[q] == fs[q]
    {
      MoveBackOutside(fs, m, b, src, dst, q);
    }
    assert b.Keys == fs.Keys;
  }

  /** An entry outside `src` is untouched by the move there and back. */
  lemma MoveBackOutside(fs: FileSystem, m: FileSystem, b: FileSystem, src: Path, dst: Path, q: Path)
    requires MovedTo(fs, m, src, dst) && MovedTo(m, b, dst, src)
    requires forall x :: x in fs ==> !Under(x, dst)
    requires !Under(q, src)
    ensures q in b <==> q in fs
    ensures q in b ==> b[q] == fs[q]
  {
    if Under(q, dst) {
      assert q !in fs;
      assert q !in b;
    }
  }

  /** An entry below `src` after the move there and back is the original
      one. */
  lemma MoveBackBelow(fs: FileSystem, m: FileSystem, b: FileSystem, src: Path, dst: Path, q: Path)
    requires MovedTo(fs, m, src, dst) && MovedTo(m, b, dst, src)
    requires Under(q, src)
    ensures q in b <==> q in fs
    ensures q in b ==> b[q] == fs[q]
  {
    var y := Rebase(q, src, dst);
    RebaseUnder(q, src, dst);
    RebaseUnder(y, dst, src);
    assert Rebase(y, dst, src) == q;
    if q in b {
      assert dst + q[|src|..] in m;
    }
  }

  /** A rename that succeeds between two different paths is a `Move`
      between incomparable paths. */
  lemma RenameIsMove(fs: FileSystem, denied: set<Path>, src: Path, dst: Path)
    requires src != dst && Rename(fs, denied, src, dst).Ok?
    ensures src in fs && src !in denied
    ensures !Under(dst, src) && !Under(src, dst)
    ensures Rename(fs, denied, src, dst).value == Move(fs, src, dst)
  {
  }

  /** The guards of `Rename` all pass for a movable source and a target
      whose parent is a directory and under which nothing exists. */
  lemma RenameToFreePath(fs: FileSystem, denied: set<Path>, src: Path, dst: Path)
    requires src in fs && src !in denied
    requires |dst| > 0 && Parent(dst) in fs && fs[Parent(dst)].Dir?
    requires !Under(dst, src) && !Under(src, dst)
    requires forall q :: q in fs ==> !Under(q, dst)
    ensures Rename(fs, denied, src, dst) == Ok(Move(fs, src, dst))
  {
    assert dst !in fs by { assert Under(dst, dst); }
  }

  /** Renaming a subtree to a path that is free, and then back, restores the
      tree. */
  lemma RenameRoundTrip(fs: FileSystem, denied: set<Path>, src: Path, dst: Path)
    requires WellFormed(fs)
    requires src != dst && Rename(fs, denied, src, dst).Ok?
    requires dst !in fs && dst !in denied
    ensures Rename(Rename(fs, denied, src, dst).value, denied, dst, src) == Ok(fs)
  {
    var m := Rename(fs, denied, src, dst).value;
    RenameIsMove(fs, denied, src, dst);
    NothingBelowFree(fs, dst);
    MoveBack(fs, src, dst);
    MoveIsMovedTo(fs, src, dst);
    assert |src| > 0;
    ParentStays(fs, m, src, dst);
    RebaseUnder(src, src, dst);
    assert dst == Rebase(src, src, dst);
    RenameToFreePath(m, denied, dst, src);
  }

  /** In a well-formed tree nothing lies below a missing path. */
  lemma NothingBelowFree(fs: FileSystem, p: Path)
    requires WellFormed(fs) && p !in fs
    ensures forall q :: q in fs ==> !Under(q, p)
  {
    forall q | q in fs ensures !Under(q, p) {
      if Under(q, p) {
        AncestorPresent(fs, q, p);
      }
    }
  }

  /** Moving a subtree away leaves the directory that held it. */
  lemma ParentStays(fs: FileSystem, m: FileSystem, src: Path, dst: Path)
    requires WellFormed(fs) && src in fs && |src| > 0
    requires !Under(src, dst)
    requires MovedTo(fs, m, src, dst)
    ensures Parent(src) in m && m[Parent(src)].Dir?
  {
    var pp := Parent(src);
    assert Under(src, pp) by { assert src[..|pp|] == pp; }
    if Under(pp, dst) {
      UnderTransitive(src, pp, dst);
    }
    assert !Under(pp, src);
    assert pp in fs && fs[pp].Dir?;
    assert pp in m && m[pp] == fs[pp];
  }

  /** Two prefixes of one path are prefixes of each other. */
  lemma Comparable(q: Path, a: Path, b: Path)
    requires Under(q, a) && Under(q, b)
    ensures Under(a, b) || Under(b, a)
  {
    if |a| <= |b| {
      assert b[..|a|] == q[..|a|];
    } else {
      assert a[..|b|] == q[..|b|];
    }
  }
}

=== FILE: scaffolding.dfy ===
/**
 What the two scaffolding scripts share: the clone of the template
 repository into `./<name>`, the guard against an existing destination, a
 rename that may be skipped, the report of a run, and the facts that let a
 run be compared with another one whose files hold different text.
 */
module Scaffolding {
  import opened Fs
  import opened Remove
  import opened Renaming
  import opened Substitution

  /** What `git-clone` hands to its callback: the repository's tree (its
      root is the empty path) or an error. */
  datatype Clone = Cloned(tree: FileSystem) | CloneFailed(message: string)

  /** How a run ends. `RenameThrew` is the exception a rename callback
      throws, which ends the process. */
  datatype Status =
    | Completed
    | DestinationExists
    | CloneError(message: string)
    | RenameThrew(error: FsError)

  /** The tree a run leaves, how it ends, and the removals whose promise
      rejected with nobody to handle the rejection. */
  datatype Report = Report(fs: FileSystem, status: Status, rejected: seq<Path>)

  /** `fs.existsSync('./' + name)` for a name without a slash: the empty
      name, `.` and `..` name the working directory or its parent. */
  predicate Occupied(fs: FileSystem, name: string) {
    name == "" || name == "." || name == ".." || [name] in fs
  }

  lemma PrependInjective(name: string)
    ensures forall a: Path, b: Path :: [name] + a == [name] + b ==> a == b
  {
    forall a: Path, b: Path | [name] + a == [name] + b ensures a == b {
      assert a == ([name] + a)[1..];
      assert b == ([name] + b)[1..];
    }
  }

  lemma UnderTop(name: string, q: Path)
    ensures Under(q, [name]) <==> |q| > 0 && q[0] == name
  {
    if |q| > 0 && q[0] == name {
      assert q[..1] == [name];
    }
  }

  /** The entries of `fs` outside `./name`. */
  function Outside(fs: FileSystem, name: string): FileSystem {
    map q | q in fs && !(|q| > 0 && q[0] == name) :: fs[q]
  }

  /** The entries of the repository, moved below `./name`. */
  function Below(name: string, tree: FileSystem): FileSystem {
    PrependInjective(name);
    map t | t in tree && |t| > 0 :: [name] + t := tree[t]
  }

  /** The tree after a successful clone into `./name`: the directory and
      the repository's entries below it, everything else as it was. */
  function Graft(fs: FileSystem, name: string, tree: FileSystem): (r: FileSystem)
    ensures [name] in r && r[[name]].Dir?
    ensures forall q :: q in fs && !Under(q, [name]) ==> q in r && r[q] == fs[q]
    ensures forall t :: t in tree && |t| > 0 ==> [name] + t in r && r[[name] + t] == tree[t]
  {
    BelowPlaces(name, tree);
    OutsideKept(fs, name);
    Outside(fs, name) + Below(name, tree) + map[[name] := Dir]
  }

  lemma OutsideKept(fs: FileSystem, name: string)
    ensures forall q :: q in fs && !Under(q, [name]) ==>
      q in Outside(fs, name) && Outside(fs, name)[q] == fs[q] && !(|q| > 0 && q[0] == name)
  {
    forall q | q in fs && !Under(q, [name])
      ensures q in Outside(fs, name) && !(|q| > 0 && q[0] == name)
    {
      UnderTop(name, q);
    }
  }

  lemma BelowPlaces(name: string, tree: FileSystem)
    ensures forall t :: t in tree && |t| > 0 ==> [name] + t in Below(name, tree) && Below(name, tree)[[name] + t] == tree[t]
    ensures forall q :: q in Below(name, tree) ==>
      |q| > 1 && q[0] == name && q[1..] in tree && Below(name, tree)[q] == tree[q[1..]]
  {
    PrependInjective(name);
    forall q | q in Below(name, tree)
      ensures |q| > 1 && q[0] == name && q[1..] in tree && Below(name, tree)[q] == tree[q[1..]]
    {
      var t :| t in tree && |t| > 0 && q == [name] + t;
      assert q[1..] == t;
    }
  }

  /** Outside `./name` a clone changes nothing. */
  lemma GraftOutside(fs: FileSystem, name: string, tree: FileSystem)
    ensures forall q :: !Under(q, [name]) ==> (q in Graft(fs, name, tree) <==> q in fs)
    ensures forall q :: q in Graft(fs, name, tree) && !Under(q, [name]) ==> Graft(fs, name, tree)[q] == fs[q]
  {
    BelowPlaces(name, tree);
    forall q ensures Under(q, [name]) <==> |q| > 0 && q[0] == name {
      UnderTop(name, q);
    }
  }

  /** Below `./name` there is the directory itself and exactly the entries
      of the repository. */
  lemma GraftInside(fs: FileSystem, name: string, tree: FileSystem)
    ensures [name] in Graft(fs, name, tree) && Graft(fs, name, tree)[[name]].Dir?
    ensures forall t :: t in tree && |t| > 0 ==>
      [name] + t in Graft(fs, name, tree) && Graft(fs, name, tree)[[name] + t] == tree[t]
    ensures forall q :: q in Graft(fs, name, tree) && Under(q, [name]) && q != [name] ==>
      q[1..] in tree && Graft(fs, name, tree)[q] == tree[q[1..]]
  {
    BelowPlaces(name, tree);
    forall q | q in Graft(fs, name, tree) && Under(q, [name]) && q != [name]
      ensures q in Below(name, tree)
    {
      UnderTop(name, q);
    }
    forall t | t in tree && |t| > 0 ensures [name] + t != [name] {
      assert |[name] + t| > 1;
    }
  }

  /** An entry the template lacks is not in the tree after the clone. */
  lemma AbsentFromClone(fs: FileSystem, name: string, tree: FileSystem, x: Path)
    requires |x| > 0 && x !in tree
    ensures [name] + x !in Graft(fs, name, tree)
  {
    GraftInside(fs, name, tree);
    UnderAppend([name], x);
    assert ([name] + x)[1..] == x;
  }

  /** A well-formed tree cloned into a free name of a well-formed working
      directory gives a well-formed tree. */
  lemma GraftWellFormed(fs: FileSystem, name: string, tree: FileSystem)
    requires WellFormed(fs) && [] in fs && fs[[]].Dir?
    requires WellFormed(tree)
    ensures WellFormed(Graft(fs, name, tree))
  {
    forall q | q in Graft(fs, name, tree) && |q| > 0
      ensures Parent(q) in Graft(fs, name, tree) && Graft(fs, name, tree)[Parent(q)].Dir?
    {
      GraftParent(fs, name, tree, q);
    }
  }

  lemma GraftParent(fs: FileSystem, name: string, tree: FileSystem, q: Path)
    requires WellFormed(fs) && [] in fs && fs[[]].Dir?
    requires WellFormed(tree)
    requires q in Graft(fs, name, tree) && |q| > 0
    ensures Parent(q) in Graft(fs, name, tree) && Graft(fs, name, tree)[Parent(q)].Dir?
  {
    if q[0] != name {
      ParentOutsideClone(fs, name, tree, q);
    } else if |q| == 1 {
      assert q == [name];
      ParentOutsideClone(fs, name, tree, []);
    } else {
      ParentInsideClone(fs, name, tree, q);
    }
  }

  /** Outside `./name` the parent of an entry is the one it had before. */
  lemma ParentOutsideClone(fs: FileSystem, name: string, tree: FileSystem, q: Path)
    requires WellFormed(fs) && [] in fs && fs[[]].Dir?
    requires q in Graft(fs, name, tree) && (|q| == 0 || q[0] != name)
    ensures |q| > 0 ==> Parent(q) in Graft(fs, name, tree) && Graft(fs, name, tree)[Parent(q)].Dir?
    ensures q == [] ==> q in Graft(fs, name, tree) && Graft(fs, name, tree)[q].Dir?
  {
    GraftOutside(fs, name, tree);
    UnderTop(name, q);
    assert q in fs;
    if |q| > 0 {
      var u := Parent(q);
      UnderTop(name, u);
      assert u in fs && fs[u].Dir?;
      assert !Under(u, [name]);
    }
  }

  /** Below `./name` the parent of an entry is `./name` or the clone of
      its parent in the repository. */
  lemma ParentInsideClone(fs: FileSystem, name: string, tree: FileSystem, q: Path)
    requires WellFormed(tree)
    requires q in Graft(fs, name, tree) && |q| > 1 && q[0] == name
    ensures Parent(q) in Graft(fs, name, tree) && Graft(fs, name, tree)[Parent(q)].Dir?
  {
    var u := Parent(q);
    GraftAt(fs, name, tree, q);
    BelowPlaces(name, tree);
    var t := q[1..];
    if |t| == 1 {
      assert u == [name];
    } else {
      assert u == [name] + Parent(t);
      GraftAt(fs, name, tree, u);
    }
  }

  /** Strictly below `./name`, the tree after the clone is the moved
      repository. */
  lemma GraftAt(fs: FileSystem, name: string, tree: FileSystem, q: Path)
    requires |q| > 1 && q[0] == name
    ensures q in Graft(fs, name, tree) <==> q in Below(name, tree)
    ensures q in Below(name, tree) ==> Graft(fs, name, tree)[q] == Below(name, tree)[q]
  {
    assert q !in Outside(fs, name);
    assert q != [name];
  }

  /** The outcome of one entry of a rename table, and the tree after it. */
  datatype Renamed = Renamed(fs: FileSystem, outcome: Outcome)

  /** `fs.rename(src, dst)` when `attempt` holds, nothing otherwise. */
  function RenameStep(fs: FileSystem, denied: set<Path>, src: Path, dst: Path, attempt: bool): (r: Renamed)
    ensures !attempt ==> r == Renamed(fs, Pass)
    ensures attempt && src !in fs ==> r == Renamed(fs, Fail(NotFound(src)))
    ensures attempt && r.outcome.Pass? ==> src in fs
    ensures r.outcome.Pass? && attempt && src != dst ==> MovedTo(fs, r.fs, src, dst)
    ensures r.outcome.Fail? ==> r.fs == fs
  {
    if !attempt then Renamed(fs, Pass)
    else
      match Rename(fs, denied, src, dst)
      case Ok(after) => Renamed(after, Pass)
      case Err(e) => Renamed(fs, Fail(e))
  }

  /** A rename of a present, unrefused entry into an existing directory,
      to a place with nothing at or below it, goes ahead and moves the
      subtree. */
  lemma RenameToFree(fs: FileSystem, denied: set<Path>, src: Path, dst: Path)
    requires src in fs && src !in denied
    requires |dst| > 0 && Parent(dst) in fs && fs[Parent(dst)].Dir?
    requires !Under(dst, src)
    requires forall q :: q in fs ==> !Under(q, dst)
    ensures RenameStep(fs, denied, src, dst, true).outcome == Pass
    ensures MovedTo(fs, RenameStep(fs, denied, src, dst, true).fs, src, dst)
  {
    assert !Under(src, dst);
    assert dst !in fs by { assert Under(dst, dst); }
    assert Refusal(fs, denied, src, dst) == Pass;
  }

  /** Neither path is at or below the other. */
  predicate Apart(a: Path, b: Path) {
    !Under(a, b) && !Under(b, a)
  }

  /** One move to a place nothing occupied: every entry not in the moved
      subtree stays, and the tree gains entries only below the target. */
  lemma OneMove(fs: FileSystem, r: FileSystem, src: Path, dst: Path)
    requires MovedTo(fs, r, src, dst)
    requires forall q :: q in fs ==> !Under(q, dst)
    ensures forall x :: x in fs && !Under(x, src) ==> x in r && r[x] == fs[x]
    ensures forall q :: q in r ==> q in fs || Under(q, dst)
  {
  }

  /** Two moves of subtrees that lie apart, each to a place nothing
      occupied: each subtree lands at its target, nothing is left at its
      source, every other entry stays, and the tree gains entries only
      below the two targets. */
  lemma DisjointMoves(fs: FileSystem, m: FileSystem, r: FileSystem, s1: Path, d1: Path, s2: Path, d2: Path)
    requires MovedTo(fs, m, s1, d1) && MovedTo(m, r, s2, d2)
    requires Apart(s1, s2) && Apart(s1, d2) && Apart(d1, s2) && Apart(d1, d2)
    requires forall q :: q in fs ==> !Under(q, d1) && !Under(q, d2)
    ensures forall x :: x in fs && Under(x, s1) ==> Rebase(x, s1, d1) in r && r[Rebase(x, s1, d1)] == fs[x]
    ensures forall x :: x in fs && Under(x, s2) ==> Rebase(x, s2, d2) in r && r[Rebase(x, s2, d2)] == fs[x]
    ensures forall q :: q in r ==> !Under(q, s1) && !Under(q, s2)
    ensures forall x :: x in fs && !Under(x, s1) && !Under(x, s2) ==> x in r && r[x] == fs[x]
    ensures forall q :: q in r ==> q in fs || Under(q, d1) || Under(q, d2)
  {
    forall x | x in fs && Under(x, s1)
      ensures Rebase(x, s1, d1) in r && r[Rebase(x, s1, d1)] == fs[x]
    {
      var y := Rebase(x, s1, d1);
      RebaseUnder(x, s1, d1);
      if Under(y, s2) { Comparable(y, d1, s2); }
      if Under(y, d2) { Comparable(y, d1, d2); }
    }
    forall x | x in fs && Under(x, s2) ensures x in m && m[x] == fs[x] {
      if Under(x, s1) { Comparable(x, s1, s2); }
    }
    forall q | q in r ensures !Under(q, s1) {
      if Under(q, s1) && Under(q, d2) { Comparable(q, s1, d2); }
      if Under(q, s1) && Under(q, s2) { Comparable(q, s1, s2); }
    }
    forall q | q in r ensures q in fs || Under(q, d1) || Under(q, d2) {
      if !Under(q, d2) && Under(q, s2) { assert false; }
    }
  }

  /** The tree after the removals of a run, and the removals whose
      promise rejected. */
  datatype Pruned = Pruned(fs: FileSystem, rejected: seq<Path>)

  /** `deleteFile(<root>, 'README.md')`, then, when `removeGit` holds,
      `deleteDirectory(<root>/.git)`. Neither promise is awaited: a
      rejection stops nothing and is only reported. */
  ghost function Prune(fs: FileSystem, denied: set<Path>, root: Path, removeGit: bool): (r: Pruned)
    ensures forall q :: q in r.fs ==> q in fs && r.fs[q] == fs[q]
    ensures root + ["README.md"] !in fs ==> root + ["README.md"] in r.rejected
    ensures root + [".git"] !in fs && removeGit ==> root + [".git"] in r.rejected
    ensures !removeGit ==> root + [".git"] !in r.rejected
    ensures forall x :: x in r.rejected ==> x == root + ["README.md"] || x == root + [".git"]
  {
    var readme := root + ["README.md"];
    var git := root + [".git"];
    var d1 := DeleteFile(fs, denied, readme);
    var d2 := if removeGit then DeleteDirectory(d1.fs, denied, git) else Removal(d1.fs, [], Pass);
    assert readme != git by { assert readme[|root|] != git[|root|]; }
    Pruned(d2.fs, (if d1.outcome.Fail? then [readme] else []) + (if d2.outcome.Fail? then [git] else []))
  }

  /** Which removals of a run are reported: `README.md` exactly when it is
      missing or something at or below it is refused; `.git` exactly when
      its removal is started and it is missing, not a directory, or holds
      something refused. */
  lemma PruneRejects(fs: FileSystem, denied: set<Path>, root: Path, removeGit: bool)
    requires WellFormed(fs)
    ensures var readme := root + ["README.md"];
      readme in Prune(fs, denied, root, removeGit).rejected <==> !(readme in fs && Clear(fs, denied, readme))
    ensures var git := root + [".git"];
      git in Prune(fs, denied, root, removeGit).rejected <==>
        removeGit && !(git in fs && fs[git].Dir? && Clear(fs, denied, git))
  {
    var readme := root + ["README.md"];
    var git := root + [".git"];
    assert readme != git by { assert readme[|root|] != git[|root|]; }
    var d1 := DeleteFile(fs, denied, readme);
    ReadmeRemoval(fs, denied, readme);
    if removeGit {
      ApartTargets(root);
      GitRemoval(fs, d1.fs, denied, root);
    }
  }

  /** What the removals of a run take away: an entry goes exactly when it is
      at or below `README.md`, or at or below the directory `.git` when its
      removal is started, and nothing in its own subtree is refused. */
  lemma PruneRemoves(fs: FileSystem, denied: set<Path>, root: Path, removeGit: bool)
    requires WellFormed(fs)
    ensures forall q :: q in fs ==>
      (q in Prune(fs, denied, root, removeGit).fs <==>
        && !(Under(q, root + ["README.md"]) && Clear(fs, denied, q))
        && !(removeGit && root + [".git"] in fs && fs[root + [".git"]].Dir? &&
             Under(q, root + [".git"]) && Clear(fs, denied, q)))
  {
    var readme := root + ["README.md"];
    var git := root + [".git"];
    var d1 := DeleteFile(fs, denied, readme);
    ReadmeRemoval(fs, denied, readme);
    if removeGit {
      ApartTargets(root);
      GitRemoval(fs, d1.fs, denied, root);
    }
  }

  /** With `README.md` and the directory `.git` present and nothing in
      `root` refused, both removals succeed: nothing is reported, and
      exactly the entries at or below the two targets are gone. */
  lemma PruneAll(fs: FileSystem, denied: set<Path>, root: Path)
    requires WellFormed(fs)
    requires root + ["README.md"] in fs
    requires root + [".git"] in fs && fs[root + [".git"]].Dir?
    requires forall q :: q in fs && Under(q, root) ==> q !in denied
    ensures Prune(fs, denied, root, true).rejected == []
    ensures forall q :: q in fs ==>
      (q in Prune(fs, denied, root, true).fs <==> !Under(q, root + ["README.md"]) && !Under(q, root + [".git"]))
  {
    var readme := root + ["README.md"];
    var git := root + [".git"];
    UnderAppend(root, ["README.md"]);
    UnderAppend(root, [".git"]);
    forall q, x | Under(q, readme) && x in fs && Under(x, q) ensures x !in denied {
      UnderTransitive(x, q, readme);
      UnderTransitive(x, readme, root);
    }
    forall q, x | Under(q, git) && x in fs && Under(x, q) ensures x !in denied {
      UnderTransitive(x, q, git);
      UnderTransitive(x, git, root);
    }
    assert Under(readme, readme) && Under(git, git);
    PruneRejects(fs, denied, root, true);
    PruneRemoves(fs, denied, root, true);
  }

  /** `deleteFile` of `README.md`, whether or not it exists. */
  lemma ReadmeRemoval(fs: FileSystem, denied: set<Path>, p: Path)
    requires WellFormed(fs)
    ensures DeleteFile(fs, denied, p).outcome.Pass? <==> p in fs && Clear(fs, denied, p)
    ensures forall q :: q in fs ==> (q in DeleteFile(fs, denied, p).fs <==> !(Under(q, p) && Clear(fs, denied, q)))
    ensures forall q :: q in DeleteFile(fs, denied, p).fs ==> q in fs && DeleteFile(fs, denied, p).fs[q] == fs[q]
    ensures WellFormed(DeleteFile(fs, denied, p).fs)
  {
    if p in fs {
      DeleteFileRemoves(fs, denied, p);
      RemovingClearKeepsWellFormed(fs, denied, p, DeleteFile(fs, denied, p).fs);
    } else {
      NothingBelowFree(fs, p);
    }
  }

  /** Nothing is below both `README.md` and `.git`. */
  lemma ApartTargets(root: Path)
    ensures forall x :: Under(x, root + [".git"]) ==> !Under(x, root + ["README.md"])
  {
    forall x | Under(x, root + [".git"]) ensures !Under(x, root + ["README.md"]) {
      assert (root + [".git"])[|root|] != (root + ["README.md"])[|root|];
    }
  }

  /** `deleteDirectory` of `.git` after the removal of `README.md`, which
      left everything at or below `.git` as it was. */
  lemma GitRemoval(fs: FileSystem, mid: FileSystem, denied: set<Path>, root: Path)
    requires WellFormed(mid)
    requires forall q :: q in mid ==> q in fs && mid[q] == fs[q]
    requires forall q :: q in fs && Under(q, root + [".git"]) ==> q in mid
    ensures var git := root + [".git"];
      DeleteDirectory(mid, denied, git).outcome.Pass? <==> git in fs && fs[git].Dir? && Clear(fs, denied, git)
    ensures var git := root + [".git"];
      forall q :: q in mid ==> (q in DeleteDirectory(mid, denied, git).fs <==>
        !(git in fs && fs[git].Dir? && Under(q, git) && Clear(fs, denied, q)))
  {
    var git := root + [".git"];
    assert Under(git, git);
    forall q | Under(q, git) ensures Clear(mid, denied, q) <==> Clear(fs, denied, q) {
      forall x | x in fs && Under(x, q) ensures x in mid {
        UnderTransitive(x, q, git);
      }
    }
    if git in mid && mid[git].Dir? {
      DeleteDirectoryRemoves(mid, denied, git);
    }
  }

  // ---------------------------------------------------------------------
  // Runs that differ only in the text of the files
  // ---------------------------------------------------------------------

  /** Same entries, and each is a directory in one tree exactly when it is
      one in the other. */
  ghost predicate SameShape(a: FileSystem, b: FileSystem) {
    a.Keys == b.Keys && forall q :: q in a ==> (a[q].Dir? <==> b[q].Dir?)
  }

  lemma WellFormedShape(a: FileSystem, b: FileSystem)
    requires SameShape(a, b) && WellFormed(a)
    ensures WellFormed(b)
  {
  }

  /** A substitution only rewrites the text of files. */
  lemma RulesKeepShape(fs: FileSystem, g: Glob, rules: seq<Rule>, failing: set<nat>)
    requires Literal(rules)
    ensures SameShape(fs, ApplyRules(fs, g, rules, failing))
  {
  }

  lemma SubstituteKeepsShape(fs: FileSystem, g: Glob, rewrite: string -> string)
    ensures SameShape(fs, Substitute(fs, g, rewrite))
  {
  }

  /** Removing from two trees of the same shape removes the same entries
      and settles the same way. */
  lemma DeleteFileShape(a: FileSystem, b: FileSystem, denied: set<Path>, p: Path)
    requires WellFormed(a) && SameShape(a, b)
    ensures SameShape(DeleteFile(a, denied, p).fs, DeleteFile(b, denied, p).fs)
    ensures DeleteFile(a, denied, p).outcome.Pass? == DeleteFile(b, denied, p).outcome.Pass?
    ensures WellFormed(DeleteFile(a, denied, p).fs)
  {
    if p in a {
      var ra := DeleteFile(a, denied, p);
      var rb := DeleteFile(b, denied, p);
      WellFormedShape(a, b);
      DeleteFileRemoves(a, denied, p);
      DeleteFileRemoves(b, denied, p);
      SameRemoval(a, b, denied, p, ra.fs, rb.fs);
    }
  }

  lemma DeleteDirectoryShape(a: FileSystem, b: FileSystem, denied: set<Path>, d: Path)
    requires WellFormed(a) && SameShape(a, b)
    ensures SameShape(DeleteDirectory(a, denied, d).fs, DeleteDirectory(b, denied, d).fs)
    ensures DeleteDirectory(a, denied, d).outcome.Pass? == DeleteDirectory(b, denied, d).outcome.Pass?
    ensures WellFormed(DeleteDirectory(a, denied, d).fs)
  {
    if d in a && a[d].Dir? {
      var ra := DeleteDirectory(a, denied, d);
      var rb := DeleteDirectory(b, denied, d);
      WellFormedShape(a, b);
      DeleteDirectoryRemoves(a, denied, d);
      DeleteDirectoryRemoves(b, denied, d);
      SameRemoval(a, b, denied, d, ra.fs, rb.fs);
    }
  }

  /** Two removals that take away the entries the characterisation of
      `DeleteFileRemoves` names leave trees of the same shape. */
  lemma SameRemoval(a: FileSystem, b: FileSystem, denied: set<Path>, p: Path, ra: FileSystem, rb: FileSystem)
    requires WellFormed(a) && SameShape(a, b)
    requires forall q :: q in ra ==> q in a && ra[q] == a[q]
    requires forall q :: q in rb ==> q in b && rb[q] == b[q]
    requires forall q :: q in a ==> (q in ra <==> !(Under(q, p) && Clear(a, denied, q)))
    requires forall q :: q in b ==> (q in rb <==> !(Under(q, p) && Clear(b, denied, q)))
    ensures SameShape(ra, rb)
    ensures WellFormed(ra)
  {
    RemovingClearKeepsWellFormed(a, denied, p, ra);
    assert forall q :: Clear(a, denied, q) == Clear(b, denied, q);
  }

  lemma PruneShape(a: FileSystem, b: FileSystem, denied: set<Path>, root: Path, removeGit: bool)
    requires WellFormed(a) && SameShape(a, b)
    ensures SameShape(Prune(a, denied, root, removeGit).fs, Prune(b, denied, root, removeGit).fs)
    ensures Prune(a, denied, root, removeGit).rejected == Prune(b, denied, root, removeGit).rejected
  {
    var readme := root + ["README.md"];
    var git := root + [".git"];
    DeleteFileShape(a, b, denied, readme);
    if removeGit {
      DeleteDirectoryShape(DeleteFile(a, denied, readme).fs, DeleteFile(b, denied, readme).fs, denied, git);
    }
  }

  lemma MoveShape(a: FileSystem, b: FileSystem, src: Path, dst: Path)
    requires SameShape(a, b)
    ensures SameShape(Move(a, src, dst), Move(b, src, dst))
  {
    RebaseInjective(src, dst);
    var ma := Move(a, src, dst);
    var mb := Move(b, src, dst);
    forall q | q in ma ensures q in mb {
    }
    forall q | q in mb ensures q in ma {
    }
  }

  /** Renaming in two trees of the same shape fails in the same way or
      succeeds in both, with trees of the same shape. */
  lemma RenameStepShape(a: FileSystem, b: FileSystem, denied: set<Path>, src: Path, dst: Path, attempt: bool)
    requires SameShape(a, b)
    ensures SameShape(RenameStep(a, denied, src, dst, attempt).fs, RenameStep(b, denied, src, dst, attempt).fs)
    ensures RenameStep(a, denied, src, dst, attempt).outcome == RenameStep(b, denied, src, dst, attempt).outcome
  {
    assert Refusal(a, denied, src, dst) == Refusal(b, denied, src, dst);
    if attempt && src in a && src != dst {
      MoveShape(a, b, src, dst);
    }
  }

  // ---------------------------------------------------------------------
  // Nothing outside the project directory changes
  // ---------------------------------------------------------------------

  /** `a` and `b` agree on every path outside `root`. */
  ghost predicate SameOutside(a: FileSystem, b: FileSystem, root: Path) {
    forall q :: !Under(q, root) ==> (q in a <==> q in b) && (q in a ==> a[q] == b[q])
  }

  lemma OutsideTrans(a: FileSystem, b: FileSystem, c: FileSystem, root: Path)
    requires SameOutside(a, b, root) && SameOutside(b, c, root)
    ensures SameOutside(a, c, root)
  {
  }

  lemma UnderAppend(root: Path, x: Path)
    ensures Under(root + x, root)
  {
    assert (root + x)[..|root|] == root;
  }

  /** A path outside `root` is outside everything below `root`. */
  lemma OutsideBelow(q: Path, p: Path, root: Path)
    requires Under(p, root) && !Under(q, root)
    ensures !Under(q, p)
  {
    if Under(q, p) {
      UnderTransitive(q, p, root);
    }
  }

  /** A glob rooted at `name` selects only paths below `./name`. */
  lemma SelectedBelow(g: Glob, q: Path)
    requires Selects(g, q)
    ensures Under(q, [g.root])
  {
    UnderTop(g.root, q);
  }

  lemma RulesOutside(fs: FileSystem, g: Glob, rules: seq<Rule>, failing: set<nat>)
    requires Literal(rules)
    ensures SameOutside(fs, ApplyRules(fs, g, rules, failing), [g.root])
  {
    forall q | !Under(q, [g.root]) && q in fs ensures !Selects(g, q) {
      if Selects(g, q) {
        SelectedBelow(g, q);
      }
    }
  }

  lemma SubstituteOutside(fs: FileSystem, g: Glob, rewrite: string -> string)
    ensures SameOutside(fs, Substitute(fs, g, rewrite), [g.root])
  {
    forall q | !Under(q, [g.root]) && q in fs ensures !Selects(g, q) {
      if Selects(g, q) {
        SelectedBelow(g, q);
      }
    }
  }

  lemma RemovalOutside(fs: FileSystem, after: FileSystem, log: seq<Path>, p: Path, root: Path)
    requires RemovedBelow(fs, after, log, p) && Under(p, root)
    ensures SameOutside(fs, after, root)
  {
    forall q | !Under(q, root) ensures (q in fs <==> q in after) && (q in fs ==> fs[q] == after[q]) {
      OutsideBelow(q, p, root);
    }
  }

  lemma RenameStepOutside(fs: FileSystem, denied: set<Path>, src: Path, dst: Path, attempt: bool, root: Path)
    requires Under(src, root) && Under(dst, root)
    ensures SameOutside(fs, RenameStep(fs, denied, src, dst, attempt).fs, root)
  {
    var r := RenameStep(fs, denied, src, dst, attempt);
    if r.outcome.Pass? && attempt && src != dst {
      forall q | !Under(q, root) ensures (q in fs <==> q in r.fs) && (q in fs ==> fs[q] == r.fs[q]) {
        OutsideBelow(q, src, root);
        OutsideBelow(q, dst, root);
      }
    }
  }

  lemma PruneOutside(fs: FileSystem, denied: set<Path>, root: Path, removeGit: bool)
    ensures SameOutside(fs, Prune(fs, denied, root, removeGit).fs, root)
  {
    var readme := root + ["README.md"];
    var git := root + [".git"];
    var d1 := DeleteFile(fs, denied, readme);
    UnderAppend(root, ["README.md"]);
    RemovalOutside(fs, d1.fs, d1.log, readme, root);
    if removeGit {
      var d2 := DeleteDirectory(d1.fs, denied, git);
      UnderAppend(root, [".git"]);
      RemovalOutside(d1.fs, d2.fs, d2.log, git, root);
    }
  }
}

=== FILE: starter.dfy ===
/**
 The webpack starter scaffold (`10up-scaffold.js`): a fixed project name,
 the same guard against an existing destination and the same clone, and in
 the clone's callback the removal of `README.md` and `.git`, one textual
 replacement over the top-level files, and the rename of `assets` to
 `new-assets`. Unlike the theme scaffold, neither the `.git` removal nor
 the rename checks first that its entry exists.

 The callback starts every step without waiting for the previous one; the
 model applies them one after the other in the order they are started.
 */
module StarterScaffold {
  import opened Fs
  import opened Remove
  import opened Renaming
  import opened Substitution
  import opened Scaffolding

  const ProjectName := "project-name"

  /** The whole run. `rewrite` is what the replacement of `'Hi.'` by
      `'Hello!'` does to a file's text, and `replaceFails` says whether that
      replacement rejects (its rejection is caught and logged). */
  ghost function Run(fs: FileSystem, denied: set<Path>, clone: Clone, rewrite: string -> string, replaceFails: bool): (r: Report)
    ensures Occupied(fs, ProjectName) <==> r.status == DestinationExists
    ensures r.status == DestinationExists ==> r == Report(fs, DestinationExists, [])
    ensures !Occupied(fs, ProjectName) && clone.CloneFailed? ==> r == Report(fs, CloneError(clone.message), [])
  {
    if Occupied(fs, ProjectName) then Report(fs, DestinationExists, [])
    else
      match clone
      case CloneFailed(message) => Report(fs, CloneError(message), [])
      case Cloned(tree) => AfterClone(Graft(fs, ProjectName, tree), denied, rewrite, replaceFails)
  }

  /** The clone's callback, on the tree with the clone in place. */
  ghost function AfterClone(cloned: FileSystem, denied: set<Path>, rewrite: string -> string, replaceFails: bool): (r: Report)
    ensures r.status == Completed || r.status.RenameThrew?
    ensures forall x :: x in r.rejected ==> x == [ProjectName, "README.md"] || x == [ProjectName, ".git"]
  {
    var root := [ProjectName];
    var pruned := Prune(cloned, denied, root, true);
    var replaced := if replaceFails then pruned.fs else Substitute(pruned.fs, Shallow(ProjectName), rewrite);
    var renamed := RenameStep(replaced, denied, root + ["assets"], root + ["new-assets"], true);
    var status := if renamed.outcome.Fail? then RenameThrew(renamed.outcome.error) else Completed;
    Report(renamed.fs, status, pruned.rejected)
  }

  lemma RunAfterClone(fs: FileSystem, denied: set<Path>, tree: FileSystem, rewrite: string -> string, replaceFails: bool)
    requires !Occupied(fs, ProjectName)
    ensures Run(fs, denied, Cloned(tree), rewrite, replaceFails) == AfterClone(Graft(fs, ProjectName, tree), denied, rewrite, replaceFails)
  {
  }

  /** Whatever happens, nothing outside `./project-name` changes. */
  lemma StarterStaysInside(fs: FileSystem, denied: set<Path>, clone: Clone, rewrite: string -> string, replaceFails: bool)
    ensures SameOutside(fs, Run(fs, denied, clone, rewrite, replaceFails).fs, [ProjectName])
  {
    if !Occupied(fs, ProjectName) && clone.Cloned? {
      var cloned := Graft(fs, ProjectName, clone.tree);
      GraftOutside(fs, ProjectName, clone.tree);
      AfterCloneStaysInside(cloned, denied, rewrite, replaceFails);
      OutsideTrans(fs, cloned, AfterClone(cloned, denied, rewrite, replaceFails).fs, [ProjectName]);
    }
  }

  lemma AfterCloneStaysInside(cloned: FileSystem, denied: set<Path>, rewrite: string -> string, replaceFails: bool)
    ensures SameOutside(cloned, AfterClone(cloned, denied, rewrite, replaceFails).fs, [ProjectName])
  {
    var root := [ProjectName];
    var pruned := Prune(cloned, denied, root, true);
    PruneOutside(cloned, denied, root, true);
    var replaced := if replaceFails then pruned.fs else Substitute(pruned.fs, Shallow(ProjectName), rewrite);
    SubstituteOutside(pruned.fs, Shallow(ProjectName), rewrite);
    OutsideTrans(cloned, pruned.fs, replaced, root);
    UnderAppend(root, ["assets"]);
    UnderAppend(root, ["new-assets"]);
    RenameStepOutside(replaced, denied, root + ["assets"], root + ["new-assets"], true, root);
    OutsideTrans(cloned, replaced, AfterClone(cloned, denied, rewrite, replaceFails).fs, root);
  }

  /** The unguarded steps: a template without `.git` gets its removal
      rejected, and a template without `assets` makes the rename throw
      `ENOENT`. */
  lemma StarterUnguardedSteps(fs: FileSystem, denied: set<Path>, tree: FileSystem, rewrite: string -> string, replaceFails: bool)
    requires !Occupied(fs, ProjectName)
    ensures [".git"] !in tree ==>
      [ProjectName, ".git"] in Run(fs, denied, Cloned(tree), rewrite, replaceFails).rejected
    ensures ["assets"] !in tree ==>
      Run(fs, denied, Cloned(tree), rewrite, replaceFails).status == RenameThrew(NotFound([ProjectName, "assets"]))
  {
    var root := [ProjectName];
    var cloned := Graft(fs, ProjectName, tree);
    RunAfterClone(fs, denied, tree, rewrite, replaceFails);
    if [".git"] !in tree {
      AbsentFromClone(fs, ProjectName, tree, [".git"]);
      GitMissingRejected(cloned, denied, rewrite, replaceFails);
    }
    if ["assets"] !in tree {
      AbsentFromClone(fs, ProjectName, tree, ["assets"]);
      AssetsMissingThrows(cloned, denied, rewrite, replaceFails);
    }
  }

  lemma GitMissingRejected(cloned: FileSystem, denied: set<Path>, rewrite: string -> string, replaceFails: bool)
    requires [ProjectName] + [".git"] !in cloned
    ensures [ProjectName, ".git"] in AfterClone(cloned, denied, rewrite, replaceFails).rejected
  {
    assert [ProjectName] + [".git"] == [ProjectName, ".git"];
  }

  lemma AssetsMissingThrows(cloned: FileSystem, denied: set<Path>, rewrite: string -> string, replaceFails: bool)
    requires [ProjectName] + ["assets"] !in cloned
    ensures AfterClone(cloned, denied, rewrite, replaceFails).status == RenameThrew(NotFound([ProjectName, "assets"]))
  {
    var root := [ProjectName];
    assert root + ["assets"] == [ProjectName, "assets"];
    var pruned := Prune(cloned, denied, root, true);
    SubstituteKeepsShape(pruned.fs, Shallow(ProjectName), rewrite);
  }

  /** The glob of the replacement reaches only the top level: a file of the
      template one directory down or deeper keeps its text, wherever it
      survives (outside `assets` and `new-assets`, which the rename
      moves). */
  lemma StarterDeepFilesKeepText(fs: FileSystem, denied: set<Path>, tree: FileSystem, rewrite: string -> string,
                                 replaceFails: bool, t: Path)
    requires !Occupied(fs, ProjectName)
    requires t in tree && |t| >= 2 && t[0] != "assets" && t[0] != "new-assets"
    requires [ProjectName] + t in Run(fs, denied, Cloned(tree), rewrite, replaceFails).fs
    ensures Run(fs, denied, Cloned(tree), rewrite, replaceFails).fs[[ProjectName] + t] == tree[t]
  {
    var cloned := Graft(fs, ProjectName, tree);
    RunAfterClone(fs, denied, tree, rewrite, replaceFails);
    GraftInside(fs, ProjectName, tree);
    UnderAppend([ProjectName], t);
    assert ([ProjectName] + t)[1..] == t;
    DeepEntryKept(cloned, denied, rewrite, replaceFails, [ProjectName] + t);
  }

  lemma DeepEntryKept(cloned: FileSystem, denied: set<Path>, rewrite: string -> string, replaceFails: bool, q: Path)
    requires q in cloned && |q| >= 3 && q[1] != "assets" && q[1] != "new-assets"
    requires q in AfterClone(cloned, denied, rewrite, replaceFails).fs
    ensures AfterClone(cloned, denied, rewrite, replaceFails).fs[q] == cloned[q]
  {
    var root := [ProjectName];
    var pruned := Prune(cloned, denied, root, true);
    var replaced := if replaceFails then pruned.fs else Substitute(pruned.fs, Shallow(ProjectName), rewrite);
    assert !Selects(Shallow(ProjectName), q);
    assert !Under(q, root + ["assets"]) by { assert (root + ["assets"])[1] == "assets"; }
    assert !Under(q, root + ["new-assets"]) by { assert (root + ["new-assets"])[1] == "new-assets"; }
    assert q in replaced;
  }

  /** A rejected replacement is caught and the run goes on: whether it
      rejects changes neither the entries left, nor which are directories,
      nor how the run ends. */
  lemma StarterReplaceFailureDoesNotStop(fs: FileSystem, denied: set<Path>, tree: FileSystem, rewrite: string -> string)
    requires WellFormed(fs) && [] in fs && fs[[]].Dir? && WellFormed(tree)
    ensures SameShape(Run(fs, denied, Cloned(tree), rewrite, true).fs, Run(fs, denied, Cloned(tree), rewrite, false).fs)
    ensures Run(fs, denied, Cloned(tree), rewrite, true).status == Run(fs, denied, Cloned(tree), rewrite, false).status
    ensures Run(fs, denied, Cloned(tree), rewrite, true).rejected == Run(fs, denied, Cloned(tree), rewrite, false).rejected
  {
    if !Occupied(fs, ProjectName) {
      var root := [ProjectName];
      var cloned := Graft(fs, ProjectName, tree);
      RunAfterClone(fs, denied, tree, rewrite, true);
      RunAfterClone(fs, denied, tree, rewrite, false);
      var pruned := Prune(cloned, denied, root, true);
      SubstituteKeepsShape(pruned.fs, Shallow(ProjectName), rewrite);
      RenameStepShape(pruned.fs, Substitute(pruned.fs, Shallow(ProjectName), rewrite), denied,
                      root + ["assets"], root + ["new-assets"], true);
    }
  }

  // ---------------------------------------------------------------------
  // What a run that meets no obstacle produces

  // A node of the clone after the replacement: a top-level file the glob
  // `project-name/*.*` selects is rewritten unless the replacement
  // rejects; everything else is as cloned.
  function Rewritten(rewrite: string -> string, replaceFails: bool, p: Path, node: Node): Node {
    if !replaceFails && node.File? && Selects(Shallow(ProjectName), p) then File(rewrite(node.content))
    else node
  }

  /** A clone that meets no obstacle: `README.md`, the directory `.git` and
      `assets` are there, nothing in `./project-name` is refused, and
      nothing occupies `new-assets`. Every such run completes with nothing
      rejected. `README.md`, `.git` and `assets` are gone, the entries of
      `assets` are found below `new-assets` as cloned, and every other
      entry stays where it was, rewritten when the glob selects it. */
  lemma AfterCloneCompletes(cloned: FileSystem, denied: set<Path>, rewrite: string -> string, replaceFails: bool)
    requires WellFormed(cloned)
    requires
      && [ProjectName, "README.md"] in cloned
      && [ProjectName, ".git"] in cloned && cloned[[ProjectName, ".git"]].Dir?
      && [ProjectName, "assets"] in cloned
      && (forall q :: q in cloned && Under(q, [ProjectName]) ==> q !in denied)
      && (forall q :: q in cloned ==> !Under(q, [ProjectName, "new-assets"]))
    ensures var r := AfterClone(cloned, denied, rewrite, replaceFails);
      r.rejected == [] && r.status == Completed
    ensures var r := AfterClone(cloned, denied, rewrite, replaceFails);
      forall q :: q in r.fs ==>
        !Under(q, [ProjectName, "README.md"]) && !Under(q, [ProjectName, ".git"]) && !Under(q, [ProjectName, "assets"])
    ensures var r := AfterClone(cloned, denied, rewrite, replaceFails);
      var src, dst := [ProjectName, "assets"], [ProjectName, "new-assets"];
      forall x :: x in cloned && Under(x, src) ==> Rebase(x, src, dst) in r.fs && r.fs[Rebase(x, src, dst)] == cloned[x]
    ensures var r := AfterClone(cloned, denied, rewrite, replaceFails);
      forall x :: x in cloned && !Under(x, [ProjectName, "README.md"]) && !Under(x, [ProjectName, ".git"]) &&
                  !Under(x, [ProjectName, "assets"]) ==>
        x in r.fs && r.fs[x] == Rewritten(rewrite, replaceFails, x, cloned[x])
  {
    var root := [ProjectName];
    var src, dst := [ProjectName, "assets"], [ProjectName, "new-assets"];
    var pruned := Prune(cloned, denied, root, true);
    var replaced := if replaceFails then pruned.fs else Substitute(pruned.fs, Shallow(ProjectName), rewrite);
    var renamed := RenameStep(replaced, denied, src, dst, true);
    AfterCloneSteps(cloned, denied, rewrite, replaceFails);
    StarterRemovals(cloned, denied, rewrite, replaceFails);
    AssetsReady(cloned, replaced, denied, rewrite, replaceFails);
    RenameToFree(replaced, denied, src, dst);
    OneMove(replaced, renamed.fs, src, dst);
    StarterOutcome(cloned, replaced, renamed.fs, rewrite, replaceFails);
  }

  /** The callback as its three stages. */
  lemma AfterCloneSteps(cloned: FileSystem, denied: set<Path>, rewrite: string -> string, replaceFails: bool)
    ensures var root := [ProjectName];
      var pruned := Prune(cloned, denied, root, true);
      var replaced := if replaceFails then pruned.fs else Substitute(pruned.fs, Shallow(ProjectName), rewrite);
      var renamed := RenameStep(replaced, denied, [ProjectName, "assets"], [ProjectName, "new-assets"], true);
      AfterClone(cloned, denied, rewrite, replaceFails) ==
        Report(renamed.fs, if renamed.outcome.Fail? then RenameThrew(renamed.outcome.error) else Completed, pruned.rejected)
  {
    assert [ProjectName] + ["assets"] == [ProjectName, "assets"];
    assert [ProjectName] + ["new-assets"] == [ProjectName, "new-assets"];
  }

  /** Both removals with nothing in the way, then the replacement: nothing
      is rejected, exactly the entries at or below `README.md` and `.git`
      are gone, and every other one is rewritten when selected. */
  lemma StarterRemovals(cloned: FileSystem, denied: set<Path>, rewrite: string -> string, replaceFails: bool)
    requires WellFormed(cloned)
    requires
      && [ProjectName, "README.md"] in cloned
      && [ProjectName, ".git"] in cloned && cloned[[ProjectName, ".git"]].Dir?
      && (forall q :: q in cloned && Under(q, [ProjectName]) ==> q !in denied)
    ensures var pruned := Prune(cloned, denied, [ProjectName], true);
      var replaced := if replaceFails then pruned.fs else Substitute(pruned.fs, Shallow(ProjectName), rewrite);
      && pruned.rejected == []
      && (forall q :: q in replaced <==>
            q in cloned && !Under(q, [ProjectName, "README.md"]) && !Under(q, [ProjectName, ".git"]))
      && (forall q :: q in replaced ==> replaced[q] == Rewritten(rewrite, replaceFails, q, cloned[q]))
  {
    assert [ProjectName] + ["README.md"] == [ProjectName, "README.md"];
    assert [ProjectName] + [".git"] == [ProjectName, ".git"];
    PruneAll(cloned, denied, [ProjectName]);
  }

  /** The rename of `assets` finds its source, its parent and a free
      target. */
  lemma AssetsReady(cloned: FileSystem, replaced: FileSystem, denied: set<Path>, rewrite: string -> string, replaceFails: bool)
    requires WellFormed(cloned)
    requires
      && [ProjectName, "assets"] in cloned
      && (forall q :: q in cloned && Under(q, [ProjectName]) ==> q !in denied)
      && (forall q :: q in cloned ==> !Under(q, [ProjectName, "new-assets"]))
    requires forall q :: q in replaced <==>
      q in cloned && !Under(q, [ProjectName, "README.md"]) && !Under(q, [ProjectName, ".git"])
    requires forall q :: q in replaced ==> replaced[q] == Rewritten(rewrite, replaceFails, q, cloned[q])
    ensures var src, dst := [ProjectName, "assets"], [ProjectName, "new-assets"];
      && src in replaced && src !in denied
      && |dst| > 0 && Parent(dst) in replaced && replaced[Parent(dst)].Dir?
      && !Under(dst, src)
      && (forall q :: q in replaced ==> !Under(q, dst))
  {
    var root := [ProjectName];
    var src := [ProjectName, "assets"];
    assert root + ["assets"] == src;
    UnderAppend(root, ["assets"]);
    AncestorPresent(cloned, src, root);
    assert Parent([ProjectName, "new-assets"]) == root;
    assert root in replaced;
    assert replaced[root] == Rewritten(rewrite, replaceFails, root, cloned[root]);
  }

  /** The tree a run leaves, from the rewritten tree and the move of
      `assets`. */
  lemma StarterOutcome(cloned: FileSystem, replaced: FileSystem, r: FileSystem, rewrite: string -> string, replaceFails: bool)
    requires forall q :: q in replaced <==>
      q in cloned && !Under(q, [ProjectName, "README.md"]) && !Under(q, [ProjectName, ".git"])
    requires forall q :: q in replaced ==> replaced[q] == Rewritten(rewrite, replaceFails, q, cloned[q])
    requires MovedTo(replaced, r, [ProjectName, "assets"], [ProjectName, "new-assets"])
    requires forall q :: q in replaced ==> !Under(q, [ProjectName, "new-assets"])
    ensures forall q :: q in r ==>
      !Under(q, [ProjectName, "README.md"]) && !Under(q, [ProjectName, ".git"]) && !Under(q, [ProjectName, "assets"])
    ensures var src, dst := [ProjectName, "assets"], [ProjectName, "new-assets"];
      forall x :: x in cloned && Under(x, src) ==> Rebase(x, src, dst) in r && r[Rebase(x, src, dst)] == cloned[x]
    ensures forall x :: x in cloned && !Under(x, [ProjectName, "README.md"]) && !Under(x, [ProjectName, ".git"]) &&
                        !Under(x, [ProjectName, "assets"]) ==>
      x in r && r[x] == Rewritten(rewrite, replaceFails, x, cloned[x])
  {
    var src, dst := [ProjectName, "assets"], [ProjectName, "new-assets"];
    var readme, git := [ProjectName, "README.md"], [ProjectName, ".git"];
    OneMove(replaced, r, src, dst);
    forall x | x in cloned && Under(x, src) ensures x in replaced && replaced[x] == cloned[x] {
      if Under(x, readme) { Comparable(x, src, readme); }
      if Under(x, git) { Comparable(x, src, git); }
      assert !Selects(Shallow(ProjectName), x) by {
        if |x| == 2 { assert x == src; }
      }
    }
    forall q | q in r ensures !Under(q, readme) && !Under(q, git) {
      if Under(q, dst) && Under(q, readme) { Comparable(q, dst, readme); }
      if Under(q, dst) && Under(q, git) { Comparable(q, dst, git); }
    }
  }
}

=== FILE: substitution.dfy ===
/**
 Find-and-replace over the files of a tree, as `replace-in-file` is used by
 the scaffolds: a glob selects the files, and each rule rewrites every
 selected file's content. A rule whose `from` is a global regular
 expression without metacharacters is a literal global replacement.
 */
module Substitution {
  import opened Fs

  /** `pat` occurs in `s` at index `i`. */
  predicate MatchAt(s: string, pat: string, i: int) {
    0 <= i && i + |pat| <= |s| && s[i..i + |pat|] == pat
  }

  /** `pat` occurs somewhere in `s`. */
  ghost predicate Occurs(s: string, pat: string) {
    exists i :: MatchAt(s, pat, i)
  }

  lemma OccursInTail(s: string, pat: string)
    requires |s| > 0 && Occurs(s[1..], pat)
    ensures Occurs(s, pat)
  {
    var i :| MatchAt(s[1..], pat, i);
    assert s[i + 1..i + 1 + |pat|] == s[1..][i..i + |pat|];
    assert MatchAt(s, pat, i + 1);
  }

  lemma TailOccurrence(s: string, pat: string)
    requires |s| > 0
    ensures Occurs(s[1..], pat) ==> Occurs(s, pat)
  {
    if Occurs(s[1..], pat) {
      OccursInTail(s, pat);
    }
  }

  lemma OccursAfterPrefix(s: string, k: nat, pat: string)
    requires k <= |s| && Occurs(s[k..], pat)
    ensures Occurs(s, pat)
  {
    var i :| MatchAt(s[k..], pat, i);
    assert s[i + k..i + k + |pat|] == s[k..][i..i + |pat|];
    assert MatchAt(s, pat, i + k);
  }

  /** `s.replace(/pat/g, rep)` for a pattern without metacharacters: the
      string is scanned from the left, and each occurrence that does not
      overlap an earlier replaced one is replaced. */
  function ReplaceAll(s: string, pat: string, rep: string): (r: string)
    requires |pat| > 0
    ensures !Occurs(s, pat) ==> r == s
    decreases |s|
  {
    if |s| < |pat| then s
    else if s[..|pat|] == pat then assert MatchAt(s, pat, 0); rep + ReplaceAll(s[|pat|..], pat, rep)
    else
      TailOccurrence(s, pat);
      [s[0]] + ReplaceAll(s[1..], pat, rep)
  }

  /** `s.split(pat)`: the pieces between the leftmost non-overlapping
      occurrences of `pat`. */
  function Split(s: string, pat: string): (r: seq<string>)
    requires |pat| > 0
    ensures |r| >= 1
    decreases |s|
  {
    if |s| < |pat| then [s]
    else if s[..|pat|] == pat then [""] + Split(s[|pat|..], pat)
    else
      var t := Split(s[1..], pat);
      [[s[0]] + t[0]] + t[1..]
  }

  /** `pieces.join(sep)`. */
  function Join(pieces: seq<string>, sep: string): (r: string)
    requires |pieces| >= 1
    ensures |pieces| == 1 ==> r == pieces[0]
    decreases |pieces|
  {
    if |pieces| == 1 then pieces[0] else pieces[0] + sep + Join(pieces[1..], sep)
  }

  /** Prepending a character to the first piece prepends it to the join. */
  lemma JoinConsFirst(c: char, t: seq<string>, sep: string)
    requires |t| >= 1
    ensures Join([[c] + t[0]] + t[1..], sep) == [c] + Join(t, sep)
  {
    var u := [[c] + t[0]] + t[1..];
    assert u[1..] == t[1..];
  }

  /** Joining the pieces with the separator they were split at gives the
      string back. */
  lemma {:induction false} JoinSplit(s: string, pat: string)
    requires |pat| > 0
    ensures Join(Split(s, pat), pat) == s
    decreases |s|
  {
    if |s| < |pat| {
    } else if s[..|pat|] == pat {
      JoinSplit(s[|pat|..], pat);
      var t := Split(s[|pat|..], pat);
      assert ([""] + t)[1..] == t;
      assert s == pat + s[|pat|..];
    } else {
      JoinSplit(s[1..], pat);
      JoinConsFirst(s[0], Split(s[1..], pat), pat);
      assert s == [s[0]] + s[1..];
    }
  }

  /** A global literal replacement is a split at the pattern followed by a
      join with the replacement. */
  lemma {:induction false} ReplaceIsSplitJoin(s: string, pat: string, rep: string)
    requires |pat| > 0
    ensures ReplaceAll(s, pat, rep) == Join(Split(s, pat), rep)
    decreases |s|
  {
    if |s| < |pat| {
    } else if s[..|pat|] == pat {
      ReplaceIsSplitJoin(s[|pat|..], pat, rep);
      var t := Split(s[|pat|..], pat);
      assert ([""] + t)[1..] == t;
    } else {
      ReplaceIsSplitJoin(s[1..], pat, rep);
      JoinConsFirst(s[0], Split(s[1..], pat), rep);
    }
  }

  /** The first piece is a prefix of the string. */
  lemma {:induction false} FirstPieceIsPrefix(s: string, pat: string)
    requires |pat| > 0
    ensures |Split(s, pat)[0]| <= |s| && s[..|Split(s, pat)[0]|] == Split(s, pat)[0]
    decreases |s|
  {
    if |s| < |pat| {
    } else if s[..|pat|] == pat {
    } else {
      FirstPieceIsPrefix(s[1..], pat);
      var t0 := Split(s[1..], pat)[0];
      assert s[..1 + |t0|] == [s[0]] + s[1..][..|t0|];
    }
  }

  /** No piece contains the pattern: every occurrence of `pat` in `s` is
      one the split cuts at, so the replacement reaches all of them. */
  lemma {:induction false} PiecesAreFree(s: string, pat: string)
    requires |pat| > 0
    ensures forall i :: 0 <= i < |Split(s, pat)| ==> !Occurs(Split(s, pat)[i], pat)
    decreases |s|
  {
    if |s| < |pat| {
    } else if s[..|pat|] == pat {
      PiecesAreFree(s[|pat|..], pat);
      var t := Split(s[|pat|..], pat);
      forall i | 0 <= i < |[""] + t| ensures !Occurs(([""] + t)[i], pat) {
        if i > 0 {
          assert ([""] + t)[i] == t[i - 1];
        }
      }
    } else {
      PiecesAreFree(s[1..], pat);
      FirstPieceIsPrefix(s[1..], pat);
      var t := Split(s[1..], pat);
      var u := [[s[0]] + t[0]] + t[1..];
      forall i | 0 <= i < |u| ensures !Occurs(u[i], pat) {
        if i > 0 {
          assert u[i] == t[i];
        } else {
          FirstPieceFree(s, pat, t[0]);
        }
      }
    }
  }

  /** The split scans from the left: the first cut is at the leftmost
      occurrence of `pat`, no occurrence starts before it (not even one
      overlapping the cut), and the remaining pieces are the split of what
      follows that occurrence. */
  lemma {:induction false} FirstCutIsLeftmost(s: string, pat: string)
    requires |pat| > 0
    ensures var t := Split(s, pat);
      forall i :: 0 <= i < |t[0]| ==> !MatchAt(s, pat, i)
    ensures var t := Split(s, pat);
      |t| > 1 ==> MatchAt(s, pat, |t[0]|)
    decreases |s|
  {
    if |s| < |pat| {
    } else if s[..|pat|] == pat {
      FirstCutAtStart(s, pat);
    } else {
      FirstCutIsLeftmost(s[1..], pat);
      FirstCutLater(s, pat);
    }
  }

  /** The case of `FirstCutIsLeftmost` where the string starts with the
      pattern. */
  lemma FirstCutAtStart(s: string, pat: string)
    requires |pat| > 0 && |s| >= |pat| && s[..|pat|] == pat
    ensures var t := Split(s, pat);
      |t| > 1 && |t[0]| == 0 && MatchAt(s, pat, 0) && t[1..] == Split(s[|pat|..], pat)
  {
    assert ([""] + Split(s[|pat|..], pat))[1..] == Split(s[|pat|..], pat);
  }

  /** The case of `FirstCutIsLeftmost` where the pattern does not start
      the string, from the same facts about its tail. */
  lemma FirstCutLater(s: string, pat: string)
    requires |pat| > 0 && |s| >= |pat| && s[..|pat|] != pat
    requires var u := Split(s[1..], pat);
      forall i :: 0 <= i < |u[0]| ==> !MatchAt(s[1..], pat, i)
    requires var u := Split(s[1..], pat);
      |u| > 1 ==> MatchAt(s[1..], pat, |u[0]|)
    ensures var t := Split(s, pat);
      forall i :: 0 <= i < |t[0]| ==> !MatchAt(s, pat, i)
    ensures var t := Split(s, pat);
      |t| > 1 ==> MatchAt(s, pat, |t[0]|)
  {
    var u, t := Split(s[1..], pat), Split(s, pat);
    SplitUnfold(s, pat);
    FirstCutStep(s, pat, u, t);
  }

  /** `Split` where the pattern does not start the string. */
  lemma SplitUnfold(s: string, pat: string)
    requires |pat| > 0 && |s| >= |pat| && s[..|pat|] != pat
    ensures Split(s, pat) == [[s[0]] + Split(s[1..], pat)[0]] + Split(s[1..], pat)[1..]
  {
  }

  /** The step of `FirstCutLater`, over the pieces as values. */
  lemma FirstCutStep(s: string, pat: string, u: seq<string>, t: seq<string>)
    requires |pat| > 0 && |s| >= |pat| && s[..|pat|] != pat && |u| >= 1
    requires forall i :: 0 <= i < |u[0]| ==> !MatchAt(s[1..], pat, i)
    requires |u| > 1 ==> MatchAt(s[1..], pat, |u[0]|)
    requires t == [[s[0]] + u[0]] + u[1..]
    ensures forall i :: 0 <= i < |t[0]| ==> !MatchAt(s, pat, i)
    ensures |t| > 1 ==> MatchAt(s, pat, |t[0]|)
  {
    var j := |u[0]|;
    assert |t[0]| == j + 1;
    forall i | 0 <= i < j + 1 ensures !MatchAt(s, pat, i) {
      if 0 < i && i + |pat| <= |s| {
        TailSlice(s, i - 1, i - 1 + |pat|);
        assert !MatchAt(s[1..], pat, i - 1);
      }
    }
    if |t| > 1 {
      TailSlice(s, j, j + |pat|);
    }
  }

  /** After the first cut, the split goes on with what follows the
      occurrence cut at: the remaining pieces are the split of the rest of
      the string. */
  lemma {:induction false} SplitRest(s: string, pat: string, j: nat)
    requires |pat| > 0
    requires |Split(s, pat)| > 1 && j == |Split(s, pat)[0]|
    ensures j + |pat| <= |s| && Split(s, pat)[1..] == Split(s[j + |pat|..], pat)
    decreases |s|
  {
    if s[..|pat|] == pat {
      FirstCutAtStart(s, pat);
    } else {
      SplitUnfold(s, pat);
      var u := Split(s[1..], pat);
      assert |u[0]| == j - 1 && |u| > 1;
      SplitRest(s[1..], pat, j - 1);
      var k := j - 1 + |pat|;
      TailDrop(s, k);
      assert u[1..] == Split(s[k + 1..], pat);
      assert Split(s, pat)[1..] == u[1..];
    }
  }

  lemma TailSlice(s: string, a: nat, b: nat)
    requires a <= b && b + 1 <= |s|
    ensures s[1..][a..b] == s[a + 1..b + 1]
  {
  }

  lemma TailDrop(s: string, a: nat)
    requires a + 1 <= |s|
    ensures s[1..][a..] == s[a + 1..]
  {
  }

  /** The string is one piece exactly when the pattern does not occur in
      it. */
  lemma SinglePiece(s: string, pat: string)
    requires |pat| > 0
    ensures |Split(s, pat)| == 1 <==> !Occurs(s, pat)
  {
    var t := Split(s, pat);
    if |t| == 1 {
      JoinSplit(s, pat);
      PiecesAreFree(s, pat);
    } else {
      FirstCutIsLeftmost(s, pat);
      assert MatchAt(s, pat, |t[0]|);
    }
  }

  /** The step of `PiecesAreFree` for a first piece that grows by one
      character where the pattern does not start. */
  lemma FirstPieceFree(s: string, pat: string, t0: string)
    requires |pat| > 0 && |s| >= |pat| && s[..|pat|] != pat
    requires |t0| <= |s[1..]| && s[1..][..|t0|] == t0 && !Occurs(t0, pat)
    ensures !Occurs([s[0]] + t0, pat)
  {
    var w := [s[0]] + t0;
    assert w == s[..1 + |t0|];
    forall i ensures !MatchAt(w, pat, i) {
      if i == 0 {
        if |pat| <= |w| {
          assert w[..|pat|] == s[..|pat|];
        }
      } else if 0 < i && i + |pat| <= |w| {
        assert w[i..i + |pat|] == t0[i - 1..i - 1 + |pat|];
        assert !MatchAt(t0, pat, i - 1);
      }
    }
  }

  /** Replacing the pattern by itself changes nothing. */
  lemma ReplaceWithItself(s: string, pat: string)
    requires |pat| > 0
    ensures ReplaceAll(s, pat, pat) == s
  {
    ReplaceIsSplitJoin(s, pat, pat);
    JoinSplit(s, pat);
  }

  /** The file selection of a `replace-in-file` glob. Directories are never
      selected, and `*` does not match a name that starts with a dot. */
  datatype Glob =
    | Deep(root: string)     // `<root>/**/*.*`
    | Shallow(root: string)  // `<root>/*.*`

  /** A name `*.*` matches: it does not start with a dot and contains one. */
  predicate DottedName(n: string) {
    |n| > 0 && n[0] != '.' && '.' in n
  }

  predicate Selects(g: Glob, p: Path) {
    match g
    case Deep(root) =>
      && |p| >= 2 && p[0] == root && DottedName(p[|p| - 1])
      && (forall k :: 1 <= k < |p| - 1 ==> |p[k]| > 0 && p[k][0] != '.')
    case Shallow(root) =>
      |p| == 2 && p[0] == root && DottedName(p[1])
  }

  /** Every file the shallow glob selects, the deep one selects too. */
  lemma ShallowWithinDeep(root: string, p: Path)
    requires Selects(Shallow(root), p)
    ensures Selects(Deep(root), p)
  {
  }

  /** One `replace-in-file` run: every selected file's content is rewritten
      and nothing else changes. */
  function Substitute(fs: FileSystem, g: Glob, rewrite: string -> string): (r: FileSystem)
    ensures r.Keys == fs.Keys
    ensures forall q :: q in fs && !(fs[q].File? && Selects(g, q)) ==> r[q] == fs[q]
    ensures forall q :: q in fs && fs[q].File? && Selects(g, q) ==> r[q] == File(rewrite(fs[q].content))
  {
    map q | q in fs :: if fs[q].File? && Selects(g, q) then File(rewrite(fs[q].content)) else fs[q]
  }

  /** An entry of the textual replacement table. */
  datatype Rule = Rule(from: string, to: string)

  predicate Literal(rules: seq<Rule>) {
    forall i :: 0 <= i < |rules| ==> |rules[i].from| > 0
  }

  /** The rules in order, applied to one string. */
  function Chain(s: string, rules: seq<Rule>): string
    requires Literal(rules)
    decreases |rules|
  {
    if |rules| == 0 then s
    else
      var last := rules[|rules| - 1];
      ReplaceAll(Chain(s, rules[..|rules| - 1]), last.from, last.to)
  }

  /** The rules whose index is not in `failing`, in their order. */
  function Survivors(rules: seq<Rule>, failing: set<nat>): (r: seq<Rule>)
    ensures |r| <= |rules|
    ensures forall j :: 0 <= j < |r| ==> r[j] in rules
    decreases |rules|
  {
    if |rules| == 0 then []
    else
      var prev := Survivors(rules[..|rules| - 1], failing);
      if |rules| - 1 in failing then prev else prev + [rules[|rules| - 1]]
  }

  /** The table applied rule by rule over the files the glob selects. A
      rule whose index is in `failing` throws; the error is caught and
      the loop goes on with the next rule. */
  function ApplyRules(fs: FileSystem, g: Glob, rules: seq<Rule>, failing: set<nat>): (r: FileSystem)
    requires Literal(rules)
    ensures r.Keys == fs.Keys
    ensures forall q :: q in fs && !(fs[q].File? && Selects(g, q)) ==> r[q] == fs[q]
    ensures forall q :: q in fs && fs[q].File? && Selects(g, q) ==> r[q].File?
    decreases |rules|
  {
    if |rules| == 0 then fs
    else
      var prev := ApplyRules(fs, g, rules[..|rules| - 1], failing);
      var last := rules[|rules| - 1];
      if |rules| - 1 in failing then prev
      else Substitute(prev, g, s => ReplaceAll(s, last.from, last.to))
  }

  /** Each selected file ends up with its content passed through the rules
      that did not fail, in table order; the failing rules are skipped and
      every later rule still runs. */
  lemma {:induction false} ApplyRulesPerFile(fs: FileSystem, g: Glob, rules: seq<Rule>, failing: set<nat>, q: Path)
    requires Literal(rules)
    requires q in fs && fs[q].File? && Selects(g, q)
    ensures Literal(Survivors(rules, failing))
    ensures ApplyRules(fs, g, rules, failing)[q] == File(Chain(fs[q].content, Survivors(rules, failing)))
    decreases |rules|
  {
    if |rules| > 0 {
      var init := rules[..|rules| - 1];
      assert Literal(init);
      ApplyRulesPerFile(fs, g, init, failing, q);
      var prev := Survivors(init, failing);
      if |rules| - 1 !in failing {
        var s := prev + [rules[|rules| - 1]];
        assert s[..|s| - 1] == prev;
      }
    }
  }

  /** A file without any occurrence of any rule's pattern is left as it
      is. */
  lemma {:induction false} ChainWithoutOccurrences(s: string, rules: seq<Rule>)
    requires Literal(rules)
    requires forall i :: 0 <= i < |rules| ==> !Occurs(s, rules[i].from)
    ensures Chain(s, rules) == s
    decreases |rules|
  {
    if |rules| > 0 {
      ChainWithoutOccurrences(s, rules[..|rules| - 1]);
    }
  }
}

=== FILE: theme.dfy ===
/**
 The theme scaffold (`10upScaffold.js`): derive the five spellings of the
 project name, refuse an existing destination, clone the template theme
 into `./<name>`, and in the clone's callback remove `README.md` and `.git`,
 rewrite the placeholder spellings in the files, and rename the placeholder
 directory and translation template.

 The callback starts the two removals, then runs the replacements with
 `replace.sync`, then starts the renames. The replacements finish before
 any removal or rename gets to act, so the model applies them first, then
 the removals, then the renames, each on the tree the previous one left.
 */
module ThemeScaffold {
  import opened Fs
  import opened Names
  import opened Remove
  import opened Renaming
  import opened Substitution
  import opened Scaffolding

  /** The replacement table: each placeholder spelling of the template and
      the spelling of the project name that replaces it. */
  function TextRules(n: NameSet): (r: seq<Rule>)
    ensures Literal(r)
  {
    [ Rule("TenUpThemeScaffold", n.pascal),
      Rule("TENUP_THEME_SCAFFOLD", n.upperSnake),
      Rule("tenup-theme-scaffold", n.kebab),
      Rule("tenup_theme_scaffold", n.lowerSnake),
      Rule("10up Theme Scaffold", n.title) ]
  }

  /** An entry of the rename table, relative to the project directory. */
  datatype Entry = Entry(from: Path, to: Path)

  function RenameTable(n: NameSet): (r: seq<Entry>)
    ensures forall e :: e in r ==> |e.from| > 0 && |e.to| > 0 && Parent(e.from) == Parent(e.to)
  {
    [ Entry(["tenup-theme-scaffold"], [n.kebab]),
      Entry(["languages", "TenUpThemeScaffold.pot"], ["languages", n.pascal + ".pot"]) ]
  }

  /** The whole run for the spellings `n`. `clone` is what `git-clone`
      reports, `denied` the entries the operating system refuses to remove
      or move, and `failing` the indices of the replacement rules that
      throw. */
  ghost function Run(fs: FileSystem, denied: set<Path>, n: NameSet, clone: Clone, failing: set<nat>): (r: Report)
    ensures Occupied(fs, n.kebab) ==> r == Report(fs, DestinationExists, [])
    ensures !Occupied(fs, n.kebab) && clone.CloneFailed? ==> r == Report(fs, CloneError(clone.message), [])
    ensures !Occupied(fs, n.kebab) && clone.Cloned? ==> r.status != DestinationExists && !r.status.CloneError?
  {
    if Occupied(fs, n.kebab) then Report(fs, DestinationExists, [])
    else
      match clone
      case CloneFailed(message) => Report(fs, CloneError(message), [])
      case Cloned(tree) => AfterClone(Graft(fs, n.kebab, tree), denied, n, failing)
  }

  /** The command as invoked with `name`. */
  ghost function Scaffold(fs: FileSystem, denied: set<Path>, name: string, clone: Clone, failing: set<nat>): (r: Report)
    ensures Occupied(fs, Lower(name)) ==> r == Report(fs, DestinationExists, [])
    ensures !Occupied(fs, Lower(name)) && clone.CloneFailed? ==> r == Report(fs, CloneError(clone.message), [])
  {
    Run(fs, denied, Derive(name), clone, failing)
  }

  /** The command with the Pascal token as evidently intended (every space
      of the title dropped). It guards and removes exactly as `Scaffold`
      does; only the replacement text of `TenUpThemeScaffold` and the name
      of the translation template can differ. */
  ghost function ScaffoldIntended(fs: FileSystem, denied: set<Path>, name: string, clone: Clone, failing: set<nat>): (r: Report)
    ensures Occupied(fs, Lower(name)) ==> r == Report(fs, DestinationExists, [])
    ensures !Occupied(fs, Lower(name)) && clone.CloneFailed? ==> r == Report(fs, CloneError(clone.message), [])
    ensures Count(Lower(name), '-') + Count(Lower(name), ' ') <= 1 ==> r == Scaffold(fs, denied, name, clone, failing)
  {
    IntendedAgrees(name);
    Run(fs, denied, DeriveIntended(name), clone, failing)
  }

  /** The clone's callback, on the tree with the clone in place. Whether
      `.git` exists is asked before anything else happens. */
  ghost function AfterClone(cloned: FileSystem, denied: set<Path>, n: NameSet, failing: set<nat>): (r: Report)
    ensures r.status == Completed || r.status.RenameThrew?
    ensures forall x :: x in r.rejected ==> x == [n.kebab, "README.md"] || x == [n.kebab, ".git"]
  {
    var root := [n.kebab];
    var replaced := ApplyRules(cloned, Deep(n.kebab), TextRules(n), failing);
    var pruned := Prune(replaced, denied, root, root + [".git"] in cloned);
    var renamed := RenameTemplate(pruned.fs, denied, n, replaced);
    Report(renamed.fs, renamed.status, pruned.rejected)
  }

  /** The tree after the renames and how the run ends. */
  datatype Finished = Finished(fs: FileSystem, status: Status)

  /** The rename table applied to `fs`. Whether a source exists is asked of
      `seen`, the tree before the removals got to act; both renames are
      started, and the first error is thrown. */
  function RenameTemplate(fs: FileSystem, denied: set<Path>, n: NameSet, seen: FileSystem): (r: Finished)
    ensures r.status == Completed || r.status.RenameThrew?
    ensures [n.kebab, "tenup-theme-scaffold"] !in seen && [n.kebab, "languages", "TenUpThemeScaffold.pot"] !in seen ==>
      r == Finished(fs, Completed)
    ensures [n.kebab, "tenup-theme-scaffold"] in seen && [n.kebab, "tenup-theme-scaffold"] !in fs ==>
      r.status == RenameThrew(NotFound([n.kebab, "tenup-theme-scaffold"]))
  {
    var root := [n.kebab];
    var t := RenameTable(n);
    assert root + t[0].from == [n.kebab, "tenup-theme-scaffold"];
    assert root + t[1].from == [n.kebab, "languages", "TenUpThemeScaffold.pot"];
    var r1 := RenameStep(fs, denied, root + t[0].from, root + t[0].to, root + t[0].from in seen);
    var r2 := RenameStep(r1.fs, denied, root + t[1].from, root + t[1].to, root + t[1].from in seen);
    var status :=
      if r1.outcome.Fail? then RenameThrew(r1.outcome.error)
      else if r2.outcome.Fail? then RenameThrew(r2.outcome.error)
      else Completed;
    Finished(r2.fs, status)
  }

  lemma RunAfterClone(fs: FileSystem, denied: set<Path>, n: NameSet, tree: FileSystem, failing: set<nat>)
    requires !Occupied(fs, n.kebab)
    ensures Run(fs, denied, n, Cloned(tree), failing) == AfterClone(Graft(fs, n.kebab, tree), denied, n, failing)
  {
  }

  /** Whatever happens, nothing outside `./<name>` changes. */
  lemma ThemeStaysInside(fs: FileSystem, denied: set<Path>, n: NameSet, clone: Clone, failing: set<nat>)
    ensures SameOutside(fs, Run(fs, denied, n, clone, failing).fs, [n.kebab])
  {
    if !Occupied(fs, n.kebab) && clone.Cloned? {
      var cloned := Graft(fs, n.kebab, clone.tree);
      GraftOutside(fs, n.kebab, clone.tree);
      AfterCloneStaysInside(cloned, denied, n, failing);
      OutsideTrans(fs, cloned, AfterClone(cloned, denied, n, failing).fs, [n.kebab]);
    }
  }

  lemma AfterCloneStaysInside(cloned: FileSystem, denied: set<Path>, n: NameSet, failing: set<nat>)
    ensures SameOutside(cloned, AfterClone(cloned, denied, n, failing).fs, [n.kebab])
  {
    var root := [n.kebab];
    var replaced := ApplyRules(cloned, Deep(n.kebab), TextRules(n), failing);
    RulesOutside(cloned, Deep(n.kebab), TextRules(n), failing);
    var pruned := Prune(replaced, denied, root, root + [".git"] in cloned);
    PruneOutside(replaced, denied, root, root + [".git"] in cloned);
    OutsideTrans(cloned, replaced, pruned.fs, root);
    RenameTemplateOutside(pruned.fs, denied, n, replaced);
    OutsideTrans(cloned, pruned.fs, RenameTemplate(pruned.fs, denied, n, replaced).fs, root);
  }

  lemma RenameTemplateOutside(fs: FileSystem, denied: set<Path>, n: NameSet, seen: FileSystem)
    ensures SameOutside(fs, RenameTemplate(fs, denied, n, seen).fs, [n.kebab])
  {
    var root := [n.kebab];
    var t := RenameTable(n);
    UnderAppend(root, t[0].from);
    UnderAppend(root, t[0].to);
    UnderAppend(root, t[1].from);
    UnderAppend(root, t[1].to);
    var r1 := RenameStep(fs, denied, root + t[0].from, root + t[0].to, root + t[0].from in seen);
    RenameStepOutside(fs, denied, root + t[0].from, root + t[0].to, root + t[0].from in seen, root);
    RenameStepOutside(r1.fs, denied, root + t[1].from, root + t[1].to, root + t[1].from in seen, root);
    OutsideTrans(fs, r1.fs, RenameTemplate(fs, denied, n, seen).fs, root);
  }

  /** A rename whose source the template does not have is skipped, and a
      missing `.git` is not removed: a template with neither rename source
      completes, and without `.git` only `README.md` can be reported as a
      rejected removal. */
  lemma ThemeSkipsMissingEntries(fs: FileSystem, denied: set<Path>, n: NameSet, tree: FileSystem, failing: set<nat>)
    requires !Occupied(fs, n.kebab)
    ensures ["tenup-theme-scaffold"] !in tree && ["languages", "TenUpThemeScaffold.pot"] !in tree ==>
      Run(fs, denied, n, Cloned(tree), failing).status == Completed
    ensures [".git"] !in tree ==>
      Run(fs, denied, n, Cloned(tree), failing).rejected == [] ||
      Run(fs, denied, n, Cloned(tree), failing).rejected == [[n.kebab, "README.md"]]
  {
    var cloned := Graft(fs, n.kebab, tree);
    RunAfterClone(fs, denied, n, tree, failing);
    var t := RenameTable(n);
    if ["tenup-theme-scaffold"] !in tree && ["languages", "TenUpThemeScaffold.pot"] !in tree {
      AbsentFromClone(fs, n.kebab, tree, t[0].from);
      AbsentFromClone(fs, n.kebab, tree, t[1].from);
      NothingToRename(cloned, denied, n, failing);
    }
    if [".git"] !in tree {
      AbsentFromClone(fs, n.kebab, tree, [".git"]);
      NoGitToRemove(cloned, denied, n, failing);
    }
  }

  lemma NothingToRename(cloned: FileSystem, denied: set<Path>, n: NameSet, failing: set<nat>)
    requires [n.kebab] + RenameTable(n)[0].from !in cloned
    requires [n.kebab] + RenameTable(n)[1].from !in cloned
    ensures AfterClone(cloned, denied, n, failing).status == Completed
  {
    RulesKeepShape(cloned, Deep(n.kebab), TextRules(n), failing);
  }

  lemma NoGitToRemove(cloned: FileSystem, denied: set<Path>, n: NameSet, failing: set<nat>)
    requires [n.kebab] + [".git"] !in cloned
    ensures AfterClone(cloned, denied, n, failing).rejected == [] ||
            AfterClone(cloned, denied, n, failing).rejected == [[n.kebab, "README.md"]]
  {
    var readme := [n.kebab] + ["README.md"];
    assert readme == [n.kebab, "README.md"];
    var replaced := ApplyRules(cloned, Deep(n.kebab), TextRules(n), failing);
    var d1 := DeleteFile(replaced, denied, readme);
    var rejected := Prune(replaced, denied, [n.kebab], false).rejected;
    assert rejected == (if d1.outcome.Fail? then [readme] else []) + [];
    if d1.outcome.Fail? {
      assert rejected == [readme];
    } else {
      assert rejected == [];
    }
  }

  /** A replacement rule that throws is caught and the run goes on: the
      removals and renames do the same whichever rules throw, so the runs
      end the same way with the same entries, files and directories. */
  lemma ThemeRuleFailuresDoNotStop(fs: FileSystem, denied: set<Path>, n: NameSet, tree: FileSystem, f1: set<nat>, f2: set<nat>)
    requires WellFormed(fs) && [] in fs && fs[[]].Dir? && WellFormed(tree)
    ensures SameShape(Run(fs, denied, n, Cloned(tree), f1).fs, Run(fs, denied, n, Cloned(tree), f2).fs)
    ensures Run(fs, denied, n, Cloned(tree), f1).status == Run(fs, denied, n, Cloned(tree), f2).status
    ensures Run(fs, denied, n, Cloned(tree), f1).rejected == Run(fs, denied, n, Cloned(tree), f2).rejected
  {
    if !Occupied(fs, n.kebab) {
      var cloned := Graft(fs, n.kebab, tree);
      RunAfterClone(fs, denied, n, tree, f1);
      RunAfterClone(fs, denied, n, tree, f2);
      GraftWellFormed(fs, n.kebab, tree);
      AfterCloneIgnoresRuleFailures(cloned, denied, n, f1, f2);
    }
  }

  lemma AfterCloneIgnoresRuleFailures(cloned: FileSystem, denied: set<Path>, n: NameSet, f1: set<nat>, f2: set<nat>)
    requires WellFormed(cloned)
    ensures SameShape(AfterClone(cloned, denied, n, f1).fs, AfterClone(cloned, denied, n, f2).fs)
    ensures AfterClone(cloned, denied, n, f1).status == AfterClone(cloned, denied, n, f2).status
    ensures AfterClone(cloned, denied, n, f1).rejected == AfterClone(cloned, denied, n, f2).rejected
  {
    var root := [n.kebab];
    var gitPresent := root + [".git"] in cloned;
    var a0 := ApplyRules(cloned, Deep(n.kebab), TextRules(n), f1);
    var b0 := ApplyRules(cloned, Deep(n.kebab), TextRules(n), f2);
    RulesKeepShape(cloned, Deep(n.kebab), TextRules(n), f1);
    RulesKeepShape(cloned, Deep(n.kebab), TextRules(n), f2);
    WellFormedShape(cloned, a0);
    PruneShape(a0, b0, denied, root, gitPresent);
    RenameTemplateShape(Prune(a0, denied, root, gitPresent).fs, Prune(b0, denied, root, gitPresent).fs, denied, n, a0, b0);
  }

  lemma RenameTemplateShape(a: FileSystem, b: FileSystem, denied: set<Path>, n: NameSet, seenA: FileSystem, seenB: FileSystem)
    requires SameShape(a, b) && seenA.Keys == seenB.Keys
    ensures SameShape(RenameTemplate(a, denied, n, seenA).fs, RenameTemplate(b, denied, n, seenB).fs)
    ensures RenameTemplate(a, denied, n, seenA).status == RenameTemplate(b, denied, n, seenB).status
  {
    var root := [n.kebab];
    var t := RenameTable(n);
    RenameStepShape(a, b, denied, root + t[0].from, root + t[0].to, root + t[0].from in seenA);
    var a1 := RenameStep(a, denied, root + t[0].from, root + t[0].to, root + t[0].from in seenA);
    var b1 := RenameStep(b, denied, root + t[0].from, root + t[0].to, root + t[0].from in seenB);
    RenameStepShape(a1.fs, b1.fs, denied, root + t[1].from, root + t[1].to, root + t[1].from in seenA);
  }

  // ---------------------------------------------------------------------
  // What a run that meets no obstacle produces

  // A node of the clone after the text replacements: a file the glob
  // `<name>/**/*.*` selects has its text passed through the rules that did
  // not throw, in table order; everything else is as cloned.
  function Rewritten(n: NameSet, failing: set<nat>, p: Path, node: Node): Node {
    if node.File? && Selects(Deep(n.kebab), p) then File(Chain(node.content, Survivors(TextRules(n), failing)))
    else node
  }

  lemma ReplacedNodes(cloned: FileSystem, n: NameSet, failing: set<nat>)
    ensures forall x :: x in cloned ==>
      ApplyRules(cloned, Deep(n.kebab), TextRules(n), failing)[x] == Rewritten(n, failing, x, cloned[x])
  {
    forall x | x in cloned
      ensures ApplyRules(cloned, Deep(n.kebab), TextRules(n), failing)[x] == Rewritten(n, failing, x, cloned[x])
    {
      if cloned[x].File? && Selects(Deep(n.kebab), x) {
        ApplyRulesPerFile(cloned, Deep(n.kebab), TextRules(n), failing, x);
      }
    }
  }

  /** A clone that meets no obstacle: `README.md`, the directory `.git` and
      the placeholder directory are there, nothing in `./<name>` is refused,
      nothing occupies `<name>/<name>`, and when the translation template
      is there, nothing occupies its new name either. Every such run
      completes with nothing rejected. `README.md`, `.git` and the
      placeholder directory are gone. The placeholder directory's entries
      are found below `<name>/<name>` and the translation template under
      the project's name, each with its text replaced. Every other entry
      stays where it was, with its text replaced. */
  lemma AfterCloneCompletes(cloned: FileSystem, denied: set<Path>, n: NameSet, failing: set<nat>)
    requires WellFormed(cloned)
    requires var k := n.kebab;
      && [k, "README.md"] in cloned
      && [k, ".git"] in cloned && cloned[[k, ".git"]].Dir?
      && [k, "tenup-theme-scaffold"] in cloned
      && (forall q :: q in cloned && Under(q, [k]) ==> q !in denied)
      && (forall q :: q in cloned ==> !Under(q, [k, k]))
    requires var k := n.kebab;
      [k, "languages", "TenUpThemeScaffold.pot"] in cloned ==>
        forall q :: q in cloned ==> !Under(q, [k, "languages", n.pascal + ".pot"])
    ensures var r := AfterClone(cloned, denied, n, failing);
      r.rejected == [] && r.status == Completed
    ensures var k := n.kebab; var r := AfterClone(cloned, denied, n, failing);
      forall q :: q in r.fs ==>
        !Under(q, [k, "README.md"]) && !Under(q, [k, ".git"]) && !Under(q, [k, "tenup-theme-scaffold"])
    ensures var k := n.kebab; var r := AfterClone(cloned, denied, n, failing);
      var s1, d1 := [k, "tenup-theme-scaffold"], [k, k];
      forall x :: x in cloned && Under(x, s1) ==>
        Rebase(x, s1, d1) in r.fs && r.fs[Rebase(x, s1, d1)] == Rewritten(n, failing, x, cloned[x])
    ensures var k := n.kebab; var r := AfterClone(cloned, denied, n, failing);
      var s2, d2 := [k, "languages", "TenUpThemeScaffold.pot"], [k, "languages", n.pascal + ".pot"];
      s2 in cloned ==>
        && (forall x :: x in cloned && Under(x, s2) ==>
              Rebase(x, s2, d2) in r.fs && r.fs[Rebase(x, s2, d2)] == Rewritten(n, failing, x, cloned[x]))
        && (forall q :: q in r.fs ==> !Under(q, s2))
    ensures var k := n.kebab; var r := AfterClone(cloned, denied, n, failing);
      forall x :: x in cloned && !Under(x, [k, "README.md"]) && !Under(x, [k, ".git"]) &&
                  !Under(x, [k, "tenup-theme-scaffold"]) && !Under(x, [k, "languages", "TenUpThemeScaffold.pot"]) ==>
        x in r.fs && r.fs[x] == Rewritten(n, failing, x, cloned[x])
  {
    var k := n.kebab;
    var replaced := ApplyRules(cloned, Deep(k), TextRules(n), failing);
    var pruned := Prune(replaced, denied, [k], true);
    var renamed := RenameTemplate(pruned.fs, denied, n, replaced);
    AfterCloneSteps(cloned, denied, n, failing);
    ThemeRemovals(cloned, denied, n, failing);
    FreeTarget(cloned, [k, "README.md"], [k, k]);
    FreeTarget(cloned, [k, ".git"], [k, k]);
    RenamesReady(cloned, pruned.fs, denied, n, replaced.Keys);
    RenameTemplateMoves(pruned.fs, denied, n, replaced);
    ThemeOutcome(cloned, pruned.fs, renamed.fs, n, failing);
  }

  /** The callback as its three stages, for a clone that has `.git`. */
  lemma AfterCloneSteps(cloned: FileSystem, denied: set<Path>, n: NameSet, failing: set<nat>)
    requires [n.kebab, ".git"] in cloned
    ensures var replaced := ApplyRules(cloned, Deep(n.kebab), TextRules(n), failing);
      var pruned := Prune(replaced, denied, [n.kebab], true);
      var renamed := RenameTemplate(pruned.fs, denied, n, replaced);
      AfterClone(cloned, denied, n, failing) == Report(renamed.fs, renamed.status, pruned.rejected)
  {
    assert [n.kebab] + [".git"] == [n.kebab, ".git"];
  }

  /** An entry of a tree is not at a place where nothing is. */
  lemma FreeTarget(fs: FileSystem, q: Path, p: Path)
    requires q in fs && forall x :: x in fs ==> !Under(x, p)
    ensures q != p && (|q| == 2 && |p| == 2 ==> q[1] != p[1] || q[0] != p[0])
  {
    assert !Under(q, p);
    assert Under(p, p);
  }

  /** What the removals leave meets the renames' demands. */
  lemma RenamesReady(cloned: FileSystem, pruned: FileSystem, denied: set<Path>, n: NameSet, seen: set<Path>)
    requires WellFormed(cloned) && seen == cloned.Keys
    requires var k := n.kebab;
      && [k, "tenup-theme-scaffold"] in cloned
      && (forall q :: q in cloned && Under(q, [k]) ==> q !in denied)
      && (forall q :: q in cloned ==> !Under(q, [k, k]))
    requires var k := n.kebab;
      [k, "languages", "TenUpThemeScaffold.pot"] in cloned ==>
        forall q :: q in cloned ==> !Under(q, [k, "languages", n.pascal + ".pot"])
    requires forall q :: q in pruned <==> q in cloned && !Under(q, [n.kebab, "README.md"]) && !Under(q, [n.kebab, ".git"])
    requires forall q :: q in pruned ==> pruned[q].Dir? == cloned[q].Dir?
    ensures var k := n.kebab;
      && [k, "tenup-theme-scaffold"] in seen && [k, "tenup-theme-scaffold"] in pruned
      && [k, "tenup-theme-scaffold"] !in denied
      && [k] in pruned && pruned[[k]].Dir? && k != "tenup-theme-scaffold"
      && (forall q :: q in pruned ==> !Under(q, [k, k]))
    ensures var k := n.kebab; var pot := [k, "languages", "TenUpThemeScaffold.pot"];
      pot in seen ==>
        && pot in pruned && pot !in denied && k != "languages"
        && [k, "languages"] in pruned && pruned[[k, "languages"]].Dir?
        && n.pascal + ".pot" != "TenUpThemeScaffold.pot"
        && (forall q :: q in pruned ==> !Under(q, [k, "languages", n.pascal + ".pot"]))
  {
    var k := n.kebab;
    var s1, d1 := [k, "tenup-theme-scaffold"], [k, k];
    FreeTarget(cloned, s1, d1);
    UnderAppend([k], ["tenup-theme-scaffold"]);
    assert [k] + ["tenup-theme-scaffold"] == s1;
    AncestorPresent(cloned, s1, [k]);
    if [k, "languages", "TenUpThemeScaffold.pot"] in cloned {
      TranslationReady(cloned, pruned, denied, n);
    }
  }

  lemma TranslationReady(cloned: FileSystem, pruned: FileSystem, denied: set<Path>, n: NameSet)
    requires WellFormed(cloned)
    requires var k := n.kebab;
      && [k, "languages", "TenUpThemeScaffold.pot"] in cloned
      && (forall q :: q in cloned && Under(q, [k]) ==> q !in denied)
      && (forall q :: q in cloned ==> !Under(q, [k, k]))
      && (forall q :: q in cloned ==> !Under(q, [k, "languages", n.pascal + ".pot"]))
    requires forall q :: q in pruned <==> q in cloned && !Under(q, [n.kebab, "README.md"]) && !Under(q, [n.kebab, ".git"])
    requires forall q :: q in pruned ==> pruned[q].Dir? == cloned[q].Dir?
    ensures var k := n.kebab; var pot := [k, "languages", "TenUpThemeScaffold.pot"];
      && pot in pruned && pot !in denied && k != "languages"
      && [k, "languages"] in pruned && pruned[[k, "languages"]].Dir?
      && n.pascal + ".pot" != "TenUpThemeScaffold.pot"
  {
    var k := n.kebab;
    var s2 := [k, "languages", "TenUpThemeScaffold.pot"];
    TranslationNames(cloned, n);
    assert [k] + ["languages", "TenUpThemeScaffold.pot"] == s2;
    UnderAppend([k], ["languages", "TenUpThemeScaffold.pot"]);
  }

  /** The translation template's directory is there, and the name and the
      template's new name differ from the places they must not be. */
  lemma TranslationNames(cloned: FileSystem, n: NameSet)
    requires WellFormed(cloned)
    requires var k := n.kebab;
      && [k, "languages", "TenUpThemeScaffold.pot"] in cloned
      && (forall q :: q in cloned ==> !Under(q, [k, k]))
      && (forall q :: q in cloned ==> !Under(q, [k, "languages", n.pascal + ".pot"]))
    ensures var k := n.kebab;
      && k != "languages" && n.pascal + ".pot" != "TenUpThemeScaffold.pot"
      && [k, "languages"] in cloned && cloned[[k, "languages"]].Dir?
  {
    var k := n.kebab;
    var s2, d2 := [k, "languages", "TenUpThemeScaffold.pot"], [k, "languages", n.pascal + ".pot"];
    assert [k, "languages"] + ["TenUpThemeScaffold.pot"] == s2;
    UnderAppend([k, "languages"], ["TenUpThemeScaffold.pot"]);
    AncestorPresent(cloned, s2, [k, "languages"]);
    FreeTarget(cloned, [k, "languages"], [k, k]);
    FreeTarget(cloned, s2, d2);
  }

  /** The tree a run leaves, from what the removals left and what the
      renames did to it. */
  lemma ThemeOutcome(cloned: FileSystem, pruned: FileSystem, r: FileSystem, n: NameSet, failing: set<nat>)
    requires var k := n.kebab;
      && (forall q :: q in pruned <==> q in cloned && !Under(q, [k, "README.md"]) && !Under(q, [k, ".git"]))
      && (forall q :: q in pruned ==> pruned[q] == Rewritten(n, failing, q, cloned[q]))
      && (forall q :: q in cloned ==> !Under(q, [k, k]))
      && [k, "tenup-theme-scaffold"] in cloned
      && k != "README.md" && k != ".git"
    requires var k := n.kebab; var s1, d1 := [k, "tenup-theme-scaffold"], [k, k];
      && (forall x :: x in pruned && Under(x, s1) ==> Rebase(x, s1, d1) in r && r[Rebase(x, s1, d1)] == pruned[x])
      && (forall q :: q in r ==> !Under(q, s1))
    requires var k := n.kebab; var s2, d2 := [k, "languages", "TenUpThemeScaffold.pot"], [k, "languages", n.pascal + ".pot"];
      s2 in cloned ==>
        && (forall x :: x in pruned && Under(x, s2) ==> Rebase(x, s2, d2) in r && r[Rebase(x, s2, d2)] == pruned[x])
        && (forall q :: q in r ==> !Under(q, s2))
    requires var k := n.kebab; var s1 := [k, "tenup-theme-scaffold"];
      var s2 := [k, "languages", "TenUpThemeScaffold.pot"];
      forall x :: x in pruned && !Under(x, s1) && !(s2 in cloned && Under(x, s2)) ==> x in r && r[x] == pruned[x]
    requires var k := n.kebab;
      forall q :: q in r ==> q in pruned || Under(q, [k, k]) || Under(q, [k, "languages", n.pascal + ".pot"])
    ensures var k := n.kebab;
      forall q :: q in r ==>
        !Under(q, [k, "README.md"]) && !Under(q, [k, ".git"]) && !Under(q, [k, "tenup-theme-scaffold"])
    ensures var k := n.kebab; var s1, d1 := [k, "tenup-theme-scaffold"], [k, k];
      forall x :: x in cloned && Under(x, s1) ==>
        Rebase(x, s1, d1) in r && r[Rebase(x, s1, d1)] == Rewritten(n, failing, x, cloned[x])
    ensures var k := n.kebab;
      var s2, d2 := [k, "languages", "TenUpThemeScaffold.pot"], [k, "languages", n.pascal + ".pot"];
      s2 in cloned ==>
        && (forall x :: x in cloned && Under(x, s2) ==>
              Rebase(x, s2, d2) in r && r[Rebase(x, s2, d2)] == Rewritten(n, failing, x, cloned[x]))
        && (forall q :: q in r ==> !Under(q, s2))
    ensures var k := n.kebab;
      forall x :: x in cloned && !Under(x, [k, "README.md"]) && !Under(x, [k, ".git"]) &&
                  !Under(x, [k, "tenup-theme-scaffold"]) && !Under(x, [k, "languages", "TenUpThemeScaffold.pot"]) ==>
        x in r && r[x] == Rewritten(n, failing, x, cloned[x])
  {
    var k := n.kebab;
    var readme, git := [k, "README.md"], [k, ".git"];
    var s1, d1 := [k, "tenup-theme-scaffold"], [k, k];
    var s2, d2 := [k, "languages", "TenUpThemeScaffold.pot"], [k, "languages", n.pascal + ".pot"];
    forall x | x in cloned && Under(x, s1) ensures x in pruned {
      if Under(x, readme) { Comparable(x, s1, readme); }
      if Under(x, git) { Comparable(x, s1, git); }
    }
    forall x | x in cloned && Under(x, s2) ensures x in pruned {
      if Under(x, readme) { Comparable(x, s2, readme); }
      if Under(x, git) { Comparable(x, s2, git); }
    }
    forall q | q in r ensures !Under(q, readme) && !Under(q, git) {
      if Under(q, d1) && Under(q, readme) { Comparable(q, d1, readme); }
      if Under(q, d1) && Under(q, git) { Comparable(q, d1, git); }
      if Under(q, d2) && Under(q, readme) { Comparable(q, d2, readme); }
      if Under(q, d2) && Under(q, git) { Comparable(q, d2, git); }
    }
  }

  /** The replacements and then both removals, with nothing in the way:
      nothing is rejected, and exactly the entries at or below `README.md`
      and `.git` are gone, every other one rewritten. */
  lemma ThemeRemovals(cloned: FileSystem, denied: set<Path>, n: NameSet, failing: set<nat>)
    requires WellFormed(cloned)
    requires var k := n.kebab;
      && [k, "README.md"] in cloned
      && [k, ".git"] in cloned && cloned[[k, ".git"]].Dir?
      && (forall q :: q in cloned && Under(q, [k]) ==> q !in denied)
    ensures var k := n.kebab;
      var pruned := Prune(ApplyRules(cloned, Deep(k), TextRules(n), failing), denied, [k], true);
      && pruned.rejected == []
      && (forall q :: q in pruned.fs <==> q in cloned && !Under(q, [k, "README.md"]) && !Under(q, [k, ".git"]))
      && (forall q :: q in pruned.fs ==> pruned.fs[q] == Rewritten(n, failing, q, cloned[q]))
      && (forall q :: q in pruned.fs ==> pruned.fs[q].Dir? == cloned[q].Dir?)
  {
    var k := n.kebab;
    var replaced := ApplyRules(cloned, Deep(k), TextRules(n), failing);
    assert [k] + ["README.md"] == [k, "README.md"] && [k] + [".git"] == [k, ".git"];
    ReplacedNodes(cloned, n, failing);
    RulesKeepShape(cloned, Deep(k), TextRules(n), failing);
    WellFormedShape(cloned, replaced);
    PruneAll(replaced, denied, [k]);
  }

  /** Both renames of the table, each to a free place: the placeholder
      directory becomes `<name>/<name>` and the translation template (when
      the template has one) gets the project's name; nothing else moves. */
  lemma RenameTemplateMoves(fs: FileSystem, denied: set<Path>, n: NameSet, seen: FileSystem)
    requires var k := n.kebab;
      && [k, "tenup-theme-scaffold"] in seen && [k, "tenup-theme-scaffold"] in fs
      && [k, "tenup-theme-scaffold"] !in denied
      && [k] in fs && fs[[k]].Dir? && k != "tenup-theme-scaffold"
      && (forall q :: q in fs ==> !Under(q, [k, k]))
    requires var k := n.kebab; var pot := [k, "languages", "TenUpThemeScaffold.pot"];
      pot in seen ==>
        && pot in fs && pot !in denied && k != "languages"
        && [k, "languages"] in fs && fs[[k, "languages"]].Dir?
        && n.pascal + ".pot" != "TenUpThemeScaffold.pot"
        && (forall q :: q in fs ==> !Under(q, [k, "languages", n.pascal + ".pot"]))
    ensures var k := n.kebab; var r := RenameTemplate(fs, denied, n, seen);
      && r.status == Completed
      && (forall x :: x in fs && Under(x, [k, "tenup-theme-scaffold"]) ==>
            Rebase(x, [k, "tenup-theme-scaffold"], [k, k]) in r.fs &&
            r.fs[Rebase(x, [k, "tenup-theme-scaffold"], [k, k])] == fs[x])
      && (forall q :: q in r.fs ==> !Under(q, [k, "tenup-theme-scaffold"]))
    ensures var k := n.kebab; var r := RenameTemplate(fs, denied, n, seen);
      var pot := [k, "languages", "TenUpThemeScaffold.pot"]; var target := [k, "languages", n.pascal + ".pot"];
      pot in seen ==>
        && (forall x :: x in fs && Under(x, pot) ==> Rebase(x, pot, target) in r.fs && r.fs[Rebase(x, pot, target)] == fs[x])
        && (forall q :: q in r.fs ==> !Under(q, pot))
    ensures var k := n.kebab; var r := RenameTemplate(fs, denied, n, seen);
      var pot := [k, "languages", "TenUpThemeScaffold.pot"];
      forall x :: x in fs && !Under(x, [k, "tenup-theme-scaffold"]) && !(pot in seen && Under(x, pot)) ==>
        x in r.fs && r.fs[x] == fs[x]
    ensures var k := n.kebab; var r := RenameTemplate(fs, denied, n, seen);
      forall q :: q in r.fs ==> q in fs || Under(q, [k, k]) || Under(q, [k, "languages", n.pascal + ".pot"])
  {
    var k := n.kebab;
    var s1, d1 := [k, "tenup-theme-scaffold"], [k, k];
    var s2, d2 := [k, "languages", "TenUpThemeScaffold.pot"], [k, "languages", n.pascal + ".pot"];
    TemplateSteps(fs, denied, n, seen);
    var r1 := RenameStep(fs, denied, s1, d1, true);
    var r2 := RenameStep(r1.fs, denied, s2, d2, s2 in seen);
    FirstRenamePasses(fs, denied, n, r1);
    if s2 in seen {
      SecondRenamePasses(fs, denied, n, r1, r2);
    }
    TableMoves(fs, n, s2 in seen, r1, r2);
  }

  lemma FirstRenamePasses(fs: FileSystem, denied: set<Path>, n: NameSet, r1: Renamed)
    requires var k := n.kebab; r1 == RenameStep(fs, denied, [k, "tenup-theme-scaffold"], [k, k], true)
    requires var k := n.kebab;
      && [k, "tenup-theme-scaffold"] in fs && [k, "tenup-theme-scaffold"] !in denied
      && [k] in fs && fs[[k]].Dir? && k != "tenup-theme-scaffold"
      && (forall q :: q in fs ==> !Under(q, [k, k]))
    ensures var k := n.kebab; r1.outcome == Pass && MovedTo(fs, r1.fs, [k, "tenup-theme-scaffold"], [k, k])
  {
    var k := n.kebab;
    assert Parent([k, k]) == [k];
    RenameToFree(fs, denied, [k, "tenup-theme-scaffold"], [k, k]);
  }

  lemma SecondRenamePasses(fs: FileSystem, denied: set<Path>, n: NameSet, r1: Renamed, r2: Renamed)
    requires var k := n.kebab; MovedTo(fs, r1.fs, [k, "tenup-theme-scaffold"], [k, k])
    requires var k := n.kebab;
      r2 == RenameStep(r1.fs, denied, [k, "languages", "TenUpThemeScaffold.pot"], [k, "languages", n.pascal + ".pot"], true)
    requires var k := n.kebab; k != "languages" && k != "tenup-theme-scaffold"
    requires var k := n.kebab;
      && [k, "languages", "TenUpThemeScaffold.pot"] in fs && [k, "languages", "TenUpThemeScaffold.pot"] !in denied
      && [k, "languages"] in fs && fs[[k, "languages"]].Dir?
      && n.pascal + ".pot" != "TenUpThemeScaffold.pot"
      && (forall q :: q in fs ==> !Under(q, [k, "languages", n.pascal + ".pot"]))
    ensures var k := n.kebab;
      r2.outcome == Pass && MovedTo(r1.fs, r2.fs, [k, "languages", "TenUpThemeScaffold.pot"], [k, "languages", n.pascal + ".pot"])
  {
    var k := n.kebab;
    SecondRenameFree(fs, r1.fs, denied, n);
    assert Parent([k, "languages", n.pascal + ".pot"]) == [k, "languages"];
    RenameToFree(r1.fs, denied, [k, "languages", "TenUpThemeScaffold.pot"], [k, "languages", n.pascal + ".pot"]);
  }

  /** The renames of the table as two steps on the paths of `./<name>`. */
  lemma TemplateSteps(fs: FileSystem, denied: set<Path>, n: NameSet, seen: FileSystem)
    ensures var k := n.kebab;
      var s1, d1 := [k, "tenup-theme-scaffold"], [k, k];
      var s2, d2 := [k, "languages", "TenUpThemeScaffold.pot"], [k, "languages", n.pascal + ".pot"];
      var r1 := RenameStep(fs, denied, s1, d1, s1 in seen);
      var r2 := RenameStep(r1.fs, denied, s2, d2, s2 in seen);
      RenameTemplate(fs, denied, n, seen) ==
        Finished(r2.fs, if r1.outcome.Fail? then RenameThrew(r1.outcome.error)
                        else if r2.outcome.Fail? then RenameThrew(r2.outcome.error)
                        else Completed)
  {
    var k := n.kebab;
    var t := RenameTable(n);
    assert [k] + t[0].from == [k, "tenup-theme-scaffold"] && [k] + t[0].to == [k, k];
    assert [k] + t[1].from == [k, "languages", "TenUpThemeScaffold.pot"];
    assert [k] + t[1].to == [k, "languages", n.pascal + ".pot"];
  }

  /** Where the two moves of the table leave the entries. */
  lemma TableMoves(fs: FileSystem, n: NameSet, second: bool, r1: Renamed, r2: Renamed)
    requires n.kebab != "languages" || !second
    requires var k := n.kebab; r1.outcome == Pass && MovedTo(fs, r1.fs, [k, "tenup-theme-scaffold"], [k, k])
    requires var k := n.kebab;
      second ==> r2.outcome == Pass && MovedTo(r1.fs, r2.fs, [k, "languages", "TenUpThemeScaffold.pot"], [k, "languages", n.pascal + ".pot"])
    requires !second ==> r2 == Renamed(r1.fs, Pass)
    requires var k := n.kebab; forall q :: q in fs ==> !Under(q, [k, k])
    requires var k := n.kebab; second ==> forall q :: q in fs ==> !Under(q, [k, "languages", n.pascal + ".pot"])
    ensures var k := n.kebab; var s1, d1 := [k, "tenup-theme-scaffold"], [k, k]; var r := r2.fs;
      && (forall x :: x in fs && Under(x, s1) ==> Rebase(x, s1, d1) in r && r[Rebase(x, s1, d1)] == fs[x])
      && (forall q :: q in r ==> !Under(q, s1))
    ensures var k := n.kebab; var r := r2.fs;
      var s2, d2 := [k, "languages", "TenUpThemeScaffold.pot"], [k, "languages", n.pascal + ".pot"];
      second ==>
        && (forall x :: x in fs && Under(x, s2) ==> Rebase(x, s2, d2) in r && r[Rebase(x, s2, d2)] == fs[x])
        && (forall q :: q in r ==> !Under(q, s2))
    ensures var k := n.kebab;
      forall x :: x in fs && !Under(x, [k, "tenup-theme-scaffold"]) &&
                  !(second && Under(x, [k, "languages", "TenUpThemeScaffold.pot"])) ==>
        x in r2.fs && r2.fs[x] == fs[x]
    ensures var k := n.kebab;
      forall q :: q in r2.fs ==> q in fs || Under(q, [k, k]) || Under(q, [k, "languages", n.pascal + ".pot"])
  {
    var k := n.kebab;
    var s1, d1 := [k, "tenup-theme-scaffold"], [k, k];
    var s2, d2 := [k, "languages", "TenUpThemeScaffold.pot"], [k, "languages", n.pascal + ".pot"];
    if second {
      TableApart(n);
      DisjointMoves(fs, r1.fs, r2.fs, s1, d1, s2, d2);
    } else {
      OneMove(fs, r1.fs, s1, d1);
    }
  }

  /** The four places of the rename table lie apart from each other, for a
      name other than `languages`. */
  lemma TableApart(n: NameSet)
    requires n.kebab != "languages"
    ensures var k := n.kebab; var s1, d1 := [k, "tenup-theme-scaffold"], [k, k];
      var s2, d2 := [k, "languages", "TenUpThemeScaffold.pot"], [k, "languages", n.pascal + ".pot"];
      Apart(s1, s2) && Apart(s1, d2) && Apart(d1, s2) && Apart(d1, d2)
  {
    var k := n.kebab;
    assert [k, "languages", n.pascal + ".pot"][1] == "languages";
    assert [k, "languages", "TenUpThemeScaffold.pot"][1] == "languages";
  }

  /** After the first rename the translation template, its directory and
      its new place are as before. */
  lemma SecondRenameFree(fs: FileSystem, r1: FileSystem, denied: set<Path>, n: NameSet)
    requires var k := n.kebab; MovedTo(fs, r1, [k, "tenup-theme-scaffold"], [k, k])
    requires var k := n.kebab; k != "languages" && k != "tenup-theme-scaffold"
    requires var k := n.kebab;
      && [k, "languages", "TenUpThemeScaffold.pot"] in fs
      && [k, "languages"] in fs && fs[[k, "languages"]].Dir?
      && n.pascal + ".pot" != "TenUpThemeScaffold.pot"
      && (forall q :: q in fs ==> !Under(q, [k, "languages", n.pascal + ".pot"]))
    ensures var k := n.kebab;
      && [k, "languages", "TenUpThemeScaffold.pot"] in r1
      && [k, "languages"] in r1 && r1[[k, "languages"]].Dir?
      && (forall q :: q in r1 ==> !Under(q, [k, "languages", n.pascal + ".pot"]))
  {
    var k := n.kebab;
    var s1, d1 := [k, "tenup-theme-scaffold"], [k, k];
    var d2 := [k, "languages", n.pascal + ".pot"];
    assert !Under([k, "languages"], s1) && !Under([k, "languages"], d1);
    assert !Under([k, "languages", "TenUpThemeScaffold.pot"], s1);
    assert !Under([k, "languages", "TenUpThemeScaffold.pot"], d1);
    forall q | q in r1 ensures !Under(q, d2) {
      if Under(q, d1) && Under(q, d2) {
        Comparable(q, d1, d2);
      }
    }
  }
}
